=== FILE: README.md ===
# makeame.me meme compositor, modelled in Dafny

This project models the part of makeame.me that turns a caption into a meme image and answers the caption request.

- `generateMemeImage` (lib/image-utils.ts) does the compositing:
  - it locates the template image and reads it;
  - it splits the caption into a top and a bottom text;
  - it picks the largest of the 128/64/32 point fonts at which the longest line fits the image width less 60 pixels;
  - it wraps each text greedily into lines and stacks them, the top block 30 pixels below the top edge and the bottom block ending an estimated 30 pixels above the bottom edge;
  - it writes the image as `public/generated/<id>-<timestamp>.jpg`.
- The `POST` handler of app/api/generateCaption/route.ts finds the template and takes the caption from the language model or from the request. It calls the compositor and answers 200, 404 or 500.
- The catalog (app/data/memes.ts) gives every template a text position: `bottom` for the Epic Handshake, `top` for all others.
- Two offline scripts build the catalog:
  - scripts/download_memes.py downloads every template image to `{id}_{sanitised name}.jpg`;
  - scripts/generate_descriptions.py asks a language model to describe every template whose image is on disk. It splits each reply at the first `Instructions:`.

Everything outside the program's own logic is a parameter:
- the file system, including whether a downloaded image could be written;
- the Jimp image and font library (`measureText`, loading fonts, reading and writing images);
- the clock;
- the language models;
- Python's `\w` and `\s` character classes.

Each one is a parameter: the compositor's collaborators are fields of an `Environment` record, and the route's models and the scripts' file checks, downloads and chat call are function parameters. Every lemma holds for every such function. A function gives the same answer whenever it is called with the same arguments. That is right for `measureText`, which is pure, even though the code measures the same string with the same font more than once, for instance a one-word line at lines 58 and 87 of lib/image-utils.ts. The one repeated call on a single path whose answer can change is the load of the 64 point font, once in the size ladder and again in the `catch`. That second load has its own flag, `fallbackReloads`. Calls repeated across memes in the scripts are the subject of a "Left out" line.

Some behaviours of the code are easy to misread; the model follows the code:
- a third caption line is dropped, not joined to the bottom text;
- when a font fails to load, the font size falls back to 64, not to the smallest size;
- a request with neither a prompt nor a caption gets a 500, because the compositor throws on `undefined`, not a validation error;
- the text position passed by the route is not a parameter of `generateMemeImage` and has no effect.

Modules:
- `FontFit`: font-size ladder.
- `CaptionText`: caption splitting.
- `TextWrap`: greedy wrap.
- `Placement`: vertical layout.
- `OutputNaming`: output names.
- `ImageUtils`: the compositor.
- `MemeCatalog`: the catalog.
- `CaptionRoute`: the route.
- `MemeFiles`: file names shared by the scripts.
- `DownloadMemes`: the download loop.
- `GenerateDescriptions`: the annotation loop.
- `Strings`, `Decimal`, `Sequences` and `Wrappers` are supporting definitions.

## Model

| member | source | states |
|---|---|---|
| FontFit.SelectFontSize | lib/image-utils.ts:54-71 | With every font loadable, the size is the largest ladder size whose measured width of the longest line is within the limit, or 32 when none is. A failed 128 load or an undefined longest line gives the result of the reload in the `catch`: 64, or nothing. There is no font at all exactly when the `try` block throws (a failed load, or measuring an undefined line) and the reload fails too. 128 only after it fitted; 32 only after 64 overflowed. |
| FontFit.SameLoadSameOutcome | lib/image-utils.ts:54-71 | When the reload succeeds exactly when the ladder's load of 64 does, no font is found exactly when 64 fails to load and 128 was not kept. |
| FontFit.ReloadRecovers | lib/image-utils.ts:59-71 | A 128 font that overflows, a ladder load of 64 that fails and a reload that succeeds give 64. The same path with a failing reload gives no font. |
| FontFit.SelectFollowsLadder | lib/image-utils.ts:54-66 | The nested checks compute an independent "first fitting size of the descending ladder 128, 64, 32" rule. |
| FontFit.FitsAtLargestSelectsLargest | lib/image-utils.ts:55-58 | A line that fits at 128 points, with the 128 font loadable, is drawn at 128. |
| CaptionText.SplitCaption | lib/image-utils.ts:43 | Both texts come out trimmed. The bottom text is undefined exactly when the caption has no newline. The top is no longer than the caption. |
| CaptionText.SingleLineCaption | lib/image-utils.ts:43 | A caption without a newline is all top text, with no bottom. |
| CaptionText.TwoLineCaption | lib/image-utils.ts:43 | The top text is the trimmed piece before the first newline. The bottom text is the trimmed piece before the second newline. Anything after a second newline is dropped. |
| CaptionText.CaptionRoundTrip | lib/image-utils.ts:43 | Joining two trimmed single-line texts with a newline and splitting again gives them back. |
| CaptionText.LongestLine | lib/image-utils.ts:50-52 | The reduce picks one of the two texts, at least as long as each of them in JavaScript `.length` (UTF-16 code units), and the bottom on a tie. It is undefined exactly when the top is empty and there is no bottom. |
| CaptionText.SurrogatePairsCountTwice | lib/image-utils.ts:50-52 | A top text of two emoji (four code units) is chosen over a three-letter bottom text: characters outside the Basic Multilingual Plane count twice. |
| Strings.JsLength | lib/image-utils.ts:51 | `.length` lies between the number of characters and twice that number. |
| Strings.JsLengthInPlane | lib/image-utils.ts:51 | For text within the Basic Multilingual Plane, `.length` is the number of characters. |
| TextWrap.WrapLines | lib/image-utils.ts:77-99 | An empty text draws nothing. Every wrapped line is non-empty. There are no more lines than words. Every line holding more than one word fits the limit. |
| TextWrap.Fold | lib/image-utils.ts:84-95 | The loop keeps every committed line non-empty and every multi-word line within the limit, and each word adds at most one line. |
| TextWrap.WrapRejoins | lib/image-utils.ts:80-99 | For a single-spaced text, joining the wrapped lines with single spaces gives the text back: no word is lost, added or reordered. |
| TextWrap.WrapIsGreedy | lib/image-utils.ts:84-95 | The first word of every line after the first would have pushed the line before it past the limit. |
| Placement.LineHeight | lib/image-utils.ts:102 | The line height is exactly one and a half times the font size. |
| Placement.Block | lib/image-utils.ts:101-120 | One draw per line, in order. The k-th line is drawn k line heights below the block's start. |
| Placement.CeilDiv | lib/image-utils.ts:132 | `Math.ceil` of an exact quotient: the least multiple of the divisor at or above the dividend, for either sign of the divisor. |
| Placement.EstimatedLines | lib/image-utils.ts:132 | For an image wider than the margin, the estimate is the fewest limit-wide lines that hold the unwrapped bottom text. |
| Placement.BottomStart | lib/image-utils.ts:128-135 | The bottom block starts at the height less 30 less the estimate times the line height. It is not finite exactly when the image is 60 pixels wide. |
| Placement.EstimatedBlockEndsAtOffset | lib/image-utils.ts:132-133 | The estimated number of lines, stacked from the bottom start, ends exactly 30 pixels above the bottom edge. |
| Placement.StackedPastEstimate | lib/image-utils.ts:132-134 | A line stacked at or past the estimated number of lines below the bottom start begins at or below 30 pixels above the bottom edge. |
| ImageUtils.GenerateMemeImage | lib/image-utils.ts:17-157 | A missing template fails first with the template's own url. An undefined caption fails after the read. The render succeeds exactly when the template exists and reads, the caption is text, a font size is found, and both the directory and the write succeed. A working fallback reload is therefore enough for the font step. The returned name is the id, a dash and the clock, and the file is that name plus `.jpg` in `public/generated/`. |
| ImageUtils.MissingTemplateMessage | lib/image-utils.ts:29-34 | A missing template fails with `Template file not found: ` followed by the catalog's url, whatever the caption. |
| ImageUtils.MkdirFailureMessage | lib/image-utils.ts:141-147 | When the image was composed but `mkdir` fails, the render fails with `Failed to create generated directory`. |
| ImageUtils.SuccessNeedsCollaborators | lib/image-utils.ts:17-157 | A successful render had a caption, a template that exists and reads, a directory it could create and a write that worked. |
| ImageUtils.SuccessDraws | lib/image-utils.ts:123-135 | A successful render had a caption and a readable image, and drew exactly the top block followed by the bottom block. |
| ImageUtils.TopBlockLayout | lib/image-utils.ts:123-126 | The top block's k-th wrapped line is drawn first, at 30 + k line heights. |
| ImageUtils.BottomBlockLayout | lib/image-utils.ts:128-135 | The bottom block's lines follow the top block's, its k-th line at the bottom start plus k line heights. |
| ImageUtils.LastBottomLinePastEstimate | lib/image-utils.ts:128-135 | The estimate comes from the unwrapped width. When wrapping needs more lines than that, on an image wider than the margin, the last bottom line starts at or below 30 pixels above the bottom edge, so a 32-point or larger line runs past the image. |
| ImageUtils.SingleLineDrawsTopOnly | lib/image-utils.ts:124-135 | A caption without a newline draws only the top block. |
| ImageUtils.EmptyBottomLineNotDrawn | lib/image-utils.ts:129 | A caption ending in a newline (an empty bottom text) draws only the wrapped top text. |
| ImageUtils.DrawnLinesFit | lib/image-utils.ts:89 | Every drawn line of more than one word fits the image width less 60 at the chosen size. |
| ImageUtils.FontIsLargestFitting | lib/image-utils.ts:50-66 | With all fonts loadable and a defined longest line, the rendered size is the largest that fits that line, or 32. |
| ImageUtils.BlankCaptionFallsBack | lib/image-utils.ts:50-71 | A blank single-line caption has an undefined longest line. Measuring it throws, so size 64 is used and nothing is drawn. |
| ImageUtils.RenderNamesUnique | lib/image-utils.ts:137-138 | Two renders of one template at different clock readings get different names. |
| OutputNaming.OutputName | lib/image-utils.ts:137-138 | The name starts with the id and a dash. What follows holds neither a dot nor a slash. |
| OutputNaming.GeneratedFile | lib/image-utils.ts:139-150 | The file is the name, between the generated directory and the `.jpg` suffix. |
| OutputNaming.OutputNameRoundTrip | lib/image-utils.ts:137-138 | The id and the timestamp can be read back from every output name. |
| OutputNaming.OutputNamesDistinct | lib/image-utils.ts:137-138 | Equal output names mean equal id and timestamp. |
| Decimal.DecimalRoundTrip | lib/image-utils.ts:138 | The decimal spelling of the timestamp reads back as the timestamp. |
| MemeCatalog.AssignTextPositions | app/data/memes.ts:12-16 | Every entry is kept in order with all fields copied. Its position is always set, never `both`, and is `bottom` exactly for id 135256802. |
| MemeCatalog.IncomingPositionIgnored | app/data/memes.ts:12-16 | The position an input entry carried makes no difference to the catalog. |
| MemeCatalog.AssignTextPositionsIdempotent | app/data/memes.ts:12-16 | Assigning positions again changes nothing. |
| CaptionRoute.FindTemplate | app/api/generateCaption/route.ts:11 | Returns the first catalog entry with the requested id. Returns none exactly when no entry has that id. |
| CaptionRoute.HandlePost | app/api/generateCaption/route.ts:6-63 | An unreadable body is a 500 and an unknown id a 404, neither calling anything. The generator is called at most once, with a catalog entry's url and id. A 200 reports exactly the caption passed to the generator and the name it returned. The status is 200, 404 or 500. |
| CaptionRoute.PromptedCaption | app/api/generateCaption/route.ts:20-35 | A truthy prompt asks the model once with the template name. A failed call is a 500. Otherwise the model's text is rendered as it is. |
| CaptionRoute.ManualCaption | app/api/generateCaption/route.ts:36-39 | A falsy prompt asks nothing and renders the request's caption unchanged, even when it is absent. |
| CaptionRoute.GeneratorDecidesResponse | app/api/generateCaption/route.ts:42-61 | A generator failure is a 500. Success answers 200 with the caption and the generator's name. |
| CaptionRoute.TextPositionIgnored | app/api/generateCaption/route.ts:42-47 | Catalogs that differ only in text positions are handled identically. |
| CaptionRoute.SuccessNamesImageByIdAndClock | app/api/generateCaption/route.ts:42-55 | With the real compositor, a 200's image url is the template id, a dash and the clock reading. |
| CaptionRoute.MissingCaptionIsServerError | app/api/generateCaption/route.ts:36-61 | No truthy prompt and no caption reach the compositor as undefined, which throws, so the answer is 500. |
| MemeFiles.ReplaceRejected | scripts/download_memes.py:18 | Same length. Every character is kept or turned into `_`. It is kept exactly when it is a word character, whitespace, a dash or an underscore. |
| MemeFiles.Sanitize | scripts/download_memes.py:16-18 | The result is stripped of surrounding whitespace and no longer than the name. |
| MemeFiles.SanitizeReplacesThenStrips | scripts/download_memes.py:16-18 | The result is the name with each rejected character replaced one for one by `_`, less a leading and a trailing run of whitespace and nothing else. |
| MemeFiles.SanitizedCharsAllowed | scripts/generate_descriptions.py:22-23 | Every surviving character is a word character, whitespace or a dash. |
| MemeFiles.SanitizeIdempotent | scripts/download_memes.py:16-18 | Sanitising twice equals sanitising once. |
| MemeFiles.SanitizeKeepsSpaceFree | scripts/download_memes.py:45 | A name without ASCII spaces sanitises to one without. |
| MemeFiles.SpacesToUnderscores | scripts/download_memes.py:45 | Every ASCII space becomes `_` and nothing else changes. |
| MemeFiles.FileStem | scripts/download_memes.py:45 | The sanitised stem never holds an ASCII space and is no longer than the name. |
| MemeFiles.MemeFileName | scripts/download_memes.py:48 | The file is the id (`None` for a missing one), `_`, a space-free stem and `.jpg`. |
| MemeFiles.PathJoin | scripts/download_memes.py:48 | An absolute file replaces the directory; otherwise they are joined with `/`. Either way the path ends with the file. |
| MemeFiles.DigitIdsKeepFilesApart | scripts/download_memes.py:48 | Different all-digit ids never give the same file name, whatever the names. |
| MemeFiles.IdBeforeUnderscore | scripts/download_memes.py:48 | The all-digit id is the text before the file name's first underscore. |
| MemeFiles.Get | scripts/download_memes.py:43-46 | A key reads as a value exactly when it holds a string. |
| DownloadMemes.NameOrUnknown | scripts/download_memes.py:44-45 | An absent name becomes `unknown` and a string name is kept. A `null` name has no value, and `.replace` then fails. |
| DownloadMemes.DownloadPlan | scripts/download_memes.py:42-49 | No more downloads than memes, each with a non-empty url. |
| DownloadMemes.CrashesWhereLoopStops | scripts/download_memes.py:22-49 | The script dies exactly when the loop meets a meme it stops at: a `null` name, or a download whose file could not be opened or written (an error `download_image` does not catch). |
| DownloadMemes.CrashesOnNullName | scripts/download_memes.py:42-45 | A `null` name anywhere in the catalog kills the script, whatever the downloads do. |
| DownloadMemes.CompletedRunCrashesIffNullName | scripts/download_memes.py:42-49 | When every download returns, the script dies exactly when some name is `null`. |
| DownloadMemes.DownloadPlanSelects | scripts/download_memes.py:22-49 | The downloads started are exactly the memes with a url among those the loop gets past, in order, then the download that raised if the loop stopped there. Each is fetched from its url for its id and name. |
| DownloadMemes.DistinctIdsDistinctFiles | scripts/download_memes.py:46-48 | Memes with different all-digit ids are written to different files. |
| DownloadMemes.DigitIdTarget | scripts/download_memes.py:48 | A file named after an all-digit id lands inside `../downloaded_memes`. |
| GenerateDescriptions.SplitDescription | scripts/generate_descriptions.py:44-53 | The description is stripped, holds no marker and is no longer than the reply. The instructions hold no marker unless they are the default. |
| GenerateDescriptions.DescriptionBeforeFirstMarker | scripts/generate_descriptions.py:47-50 | The description is always the stripped text before the first marker, so its default is never used. |
| GenerateDescriptions.UnmarkedReply | scripts/generate_descriptions.py:47-53 | A reply without the marker is all description, with the default instructions. |
| GenerateDescriptions.MarkedReply | scripts/generate_descriptions.py:47-53 | The description is the text before the first marker. The instructions are the text after it, up to any further marker. |
| GenerateDescriptions.DescriptionRoundTrip | scripts/generate_descriptions.py:47-53 | Description, marker and marker-free instructions split back into both texts, stripped. |
| GenerateDescriptions.LaterMarkersDropped | scripts/generate_descriptions.py:51-53 | Text after a second marker is dropped from the instructions. |
| GenerateDescriptions.Describe | scripts/generate_descriptions.py:27-58 | A failed model call gives both defaults. Otherwise the description holds no marker. |
| GenerateDescriptions.Annotate | scripts/generate_descriptions.py:81-89 | The record keeps the meme's id and name and points at its image path in `../public/memes`. |
| GenerateDescriptions.AnnotateAll | scripts/generate_descriptions.py:68-91 | A successful run keeps at most one record per meme. |
| GenerateDescriptions.SavesIffAllNamed | scripts/generate_descriptions.py:68-95 | The output is saved exactly when every meme has a string name. |
| GenerateDescriptions.AnnotateAllSelects | scripts/generate_descriptions.py:68-91 | The records are those of the memes whose image exists, in catalog order. |
| GenerateDescriptions.SavedImagesExist | scripts/generate_descriptions.py:74-89 | Every saved record points at an image that was on disk. |

## Left out

- Pixel work: drawing glyphs, centring text horizontally, decoding and encoding JPEG. Jimp does these; the model records each `image.print` call's text and y coordinate.
- Font files and `measureText`: the model takes measured widths as a parameter, so nothing is assumed about glyph metrics.
- `path.join` with `process.cwd()` and path normalisation: the template path is the url with its first `/public` removed, below an unmodelled `public/` root.
- Floating point: every y coordinate is whole, because every font size is even. The only non-finite case, an image exactly 60 pixels wide, is modelled as `NotFinite`. `Math.round` is the identity on the values that occur.
- Decimal.DecimalRoundTrip: JavaScript prints timestamps of 10^21 milliseconds or more in exponent notation. The model always prints plain digits, because no clock reaches that value.
- JSON values of other types, such as a numeric id or a non-string caption or prompt. Fields are modelled as absent, `null` or a string.
- Exact text of errors raised by Jimp, Node and the runtime. Only the two messages the compositor writes itself are modelled.
- Logging (`console.log`, `print`) and the wording of the language-model prompts.
- The request inside `download_image` and the bytes written: a failed request is caught and reported, so it changes neither the loop nor which files are requested. Whether opening or writing the file raises is the parameter `completes`. Creating the output directory before the loop is left out.
- Reading the input JSON and writing the annotated JSON: the model returns the records, or the error that stops the script before saving.
- Collaborators whose answer changes between identical calls. Each is a function of its arguments, except the second load of the 64 point font, which has its own flag. So two memes with the same name get the same reply from the descriptions script's `ask`. Two downloads of the same meme share one `completes` answer.
- Python's Unicode `\w` and `\s`: they are parameters. The only fact used is that `_` is a word character.
- The React page, the meme viewer and the Next.js configuration are not part of this model.

=== FILE: caption.dfy ===
/** Turning a caption string into the two blocks of text drawn on the
    template (lib/image-utils.ts): `caption.split('\n')` with each piece
    trimmed, keeping only the first two pieces, and the choice of the line
    whose length drives the font size. */
module CaptionText {
  import opened Wrappers
  import opened Strings

  /** `topText` is always present; `bottomText` is `undefined` (`None`)
      when the caption has no newline. */
  datatype CaptionLines = CaptionLines(top: string, bottom: Option<string>)

  function TrimJs(s: string): string {
    Trim(s, IsJsWhiteSpace)
  }

  function SplitCaption(caption: string): (c: CaptionLines)
    ensures IsTrimmed(c.top, IsJsWhiteSpace)
    ensures c.bottom.Some? ==> IsTrimmed(c.bottom.value, IsJsWhiteSpace)
    ensures c.bottom.None? <==> '\n' !in caption
    ensures |c.top| <= |caption|
  {
    var parts := Split(caption, "\n");
    SplitPieces(caption, "\n");
    ContainsChar(caption, '\n');
    CaptionLines(TrimJs(parts[0]), if |parts| > 1 then Some(TrimJs(parts[1])) else None)
  }

  /** Without a newline the whole (trimmed) caption is the top text. */
  lemma SingleLineCaption(line: string)
    requires '\n' !in line
    ensures SplitCaption(line) == CaptionLines(TrimJs(line), None)
  {
    SplitWithoutChar(line, '\n');
  }

  /** The top text is the trimmed text before the first newline, the bottom
      text the trimmed text between the first and the second; whatever
      follows a second newline is dropped. */
  lemma TwoLineCaption(top: string, bottom: string, rest: string)
    requires '\n' !in top && '\n' !in bottom
    ensures SplitCaption(top + "\n" + bottom) == CaptionLines(TrimJs(top), Some(TrimJs(bottom)))
    ensures SplitCaption(top + "\n" + bottom + "\n" + rest) == CaptionLines(TrimJs(top), Some(TrimJs(bottom)))
  {
    SplitAtFirstChar(top, '\n', bottom);
    SplitWithoutChar(bottom, '\n');
    assert top + "\n" + bottom + "\n" + rest == top + "\n" + (bottom + "\n" + rest);
    SplitAtFirstChar(top, '\n', bottom + "\n" + rest);
    SplitAtFirstChar(bottom, '\n', rest);
  }

  /** Re-splitting a pair of already trimmed, single-line texts joined by a
      newline gives the pair back. */
  lemma CaptionRoundTrip(top: string, bottom: string)
    requires '\n' !in top && '\n' !in bottom
    requires IsTrimmed(top, IsJsWhiteSpace) && IsTrimmed(bottom, IsJsWhiteSpace)
    ensures SplitCaption(top + "\n" + bottom) == CaptionLines(top, Some(bottom))
  {
    TwoLineCaption(top, bottom, "");
  }

  /** `[topText, bottomText].reduce((a, b) => (a?.length || 0) > (b?.length || 0) ? a : b)`:
      the line with more UTF-16 code units (JavaScript's `.length`), the
      bottom one on a tie, and `None` (JavaScript `undefined`) when the top
      is empty and there is no bottom. */
  function LongestLine(top: string, bottom: Option<string>): (r: Option<string>)
    ensures r == Some(top) || r == bottom
    ensures r.Some? ==> JsLength(r.value) >= JsLength(top)
    ensures r.Some? && bottom.Some? ==> JsLength(r.value) >= JsLength(bottom.value)
    ensures bottom.Some? && JsLength(top) <= JsLength(bottom.value) ==> r == bottom
    ensures r.None? <==> top == "" && bottom.None?
  {
    if JsLength(top) > (if bottom.Some? then JsLength(bottom.value) else 0) then Some(top) else bottom
  }

  /** Lengths are code units, not characters: a top text of two emoji
      (four code units) outweighs a three-letter bottom text. */
  lemma SurrogatePairsCountTwice()
    ensures LongestLine("\U{1F600}\U{1F600}", Some("abc")) == Some("\U{1F600}\U{1F600}")
  {
    var top := "\U{1F600}\U{1F600}";
    assert top[1..][1..] == [];
    assert JsLength(top) == 4;
    assert "abc"[1..][1..][1..] == [];
    assert JsLength("abc") == 3;
  }
}

=== FILE: catalog.dfy ===
/** The template catalog (app/data/memes.ts): entries read from the
    annotated JSON file, each given a `textPosition` that replaces whatever
    the file held: `bottom` for the Epic Handshake template, `top` for all
    others. */
module MemeCatalog {
  import opened Wrappers

  datatype TextPosition = Top | Bottom | Both

  datatype MemeTemplate = MemeTemplate(
    id: string,
    name: string,
    templateUrl: string,
    description: string,
    instructions: string,
    textPosition: Option<TextPosition>)   // optional in the interface

  /** The one template whose caption is anchored at the bottom. */
  const BottomAnchoredId := "135256802"

  function PositionFor(id: string): TextPosition {
    if id == BottomAnchoredId then Bottom else Top
  }

  /** `data.memes.map(meme => ({...meme, textPosition: ...}))` */
  function AssignTextPositions(entries: seq<MemeTemplate>): (memes: seq<MemeTemplate>)
    ensures |memes| == |entries|
    // Everything but the position is copied, entry by entry, in order.
    ensures forall k :: 0 <= k < |memes| ==>
      memes[k] == entries[k].(textPosition := memes[k].textPosition)
    // The position is always set, never to `both`, and is `bottom`
    // exactly for the Epic Handshake id.
    ensures forall k :: 0 <= k < |memes| ==>
      memes[k].textPosition == Some(Top) || memes[k].textPosition == Some(Bottom)
    ensures forall k :: 0 <= k < |memes| ==>
      (memes[k].textPosition == Some(Bottom) <==> entries[k].id == BottomAnchoredId)
  {
    seq(|entries|, k requires 0 <= k < |entries| =>
      entries[k].(textPosition := Some(PositionFor(entries[k].id))))
  }

  /** The position an input entry carried makes no difference. */
  lemma IncomingPositionIgnored(a: seq<MemeTemplate>, b: seq<MemeTemplate>)
    requires |a| == |b|
    requires forall k :: 0 <= k < |a| ==> a[k].(textPosition := None) == b[k].(textPosition := None)
    ensures AssignTextPositions(a) == AssignTextPositions(b)
  {
    var ma := AssignTextPositions(a);
    var mb := AssignTextPositions(b);
    forall k | 0 <= k < |a|
      ensures ma[k] == mb[k]
    {
      assert a[k].id == a[k].(textPosition := None).id;
      assert b[k].id == b[k].(textPosition := None).id;
    }
  }

  /** Assigning positions to an already assigned catalog changes nothing. */
  lemma AssignTextPositionsIdempotent(entries: seq<MemeTemplate>)
    ensures AssignTextPositions(AssignTextPositions(entries)) == AssignTextPositions(entries)
  {
  }
}

=== FILE: decimal.dfy ===
/** Decimal rendering of a natural number, as JavaScript's template literal
    `${n}` prints an integer-valued number below 10^21, and its inverse. */
module Decimal {

  predicate IsDigit(c: char) {
    '0' <= c <= '9'
  }

  predicate AllDigits(s: string) {
    forall k :: 0 <= k < |s| ==> IsDigit(s[k])
  }

  function DigitChar(d: nat): (c: char)
    requires d < 10
    ensures IsDigit(c)
  {
    (48 + d) as char
  }

  function DigitValue(c: char): (d: nat)
    requires IsDigit(c)
    ensures d < 10
  {
    (c as int) - 48
  }

  /** The shortest base-10 spelling of `n`: no sign, no leading zero. */
  function DecimalString(n: nat): (s: string)
    ensures |s| >= 1 && AllDigits(s)
    ensures |s| > 1 ==> s[0] != '0'
    decreases n
  {
    if n < 10 then [DigitChar(n)]
    else DecimalString(n / 10) + [DigitChar(n % 10)]
  }

  /** The number a string of digits spells. */
  function DecimalValue(s: string): nat
    requires AllDigits(s)
    decreases |s|
  {
    if |s| == 0 then 0
    else DecimalValue(s[..|s| - 1]) * 10 + DigitValue(s[|s| - 1])
  }

  /** Reading back a printed number gives the number. */
  lemma {:induction false} DecimalRoundTrip(n: nat)
    ensures DecimalValue(DecimalString(n)) == n
    decreases n
  {
    var s := DecimalString(n);
    if n < 10 {
      assert s[..0] == [];
    } else {
      DecimalRoundTrip(n / 10);
      assert s[..|s| - 1] == DecimalString(n / 10);
    }
  }
}

=== FILE: descriptions.dfy ===
/** scripts/generate_descriptions.py: for each meme of the catalog JSON
    whose image is on disk, ask the language model for a description and
    instructions, split its reply at the first "Instructions:", and collect
    one annotated record per meme. The model call and the file system are
    parameters; the records are written out only after the loop, so a crash
    in the loop writes nothing. */
module GenerateDescriptions {
  import opened Wrappers
  import opened Strings
  import opened Sequences
  import opened MemeFiles

  const Marker := "Instructions:"
  const NoDescription := "No description available."
  const NoInstructions := "No instructions available."
  const MemesFolder := "../public/memes"

  datatype Annotation = Annotation(description: string, instructions: string)

  /** The record appended for one meme. */
  datatype AnnotatedMeme = AnnotatedMeme(
    id: Option<string>, name: string, templateUrl: string,
    description: string, instructions: string)

  /** `meme_name.replace(...)` raises on a name that is absent or `null`;
      the script stops before saving anything. */
  datatype ScriptError = NameMissing

  /** The marker's first letter does not recur in it, so occurrences of
      the marker never overlap. */
  lemma MarkerStartsOnce()
    ensures |Marker| > 0 && Marker[0] !in Marker[1..]
  {
    assert Marker[1..] == "nstructions:";
  }

  /** `generate_description_and_instructions` once a reply arrived: strip
      it, split it at "Instructions:", take the stripped first piece as the
      description and the stripped second piece, when there is one, as the
      instructions. */
  function SplitDescription(cc: CharClasses, reply: string): (a: Annotation)
    ensures !Contains(a.description, Marker)
    ensures IsTrimmed(a.description, cc.isSpace)
    ensures |a.description| <= |reply|
    ensures a.instructions != NoInstructions ==> !Contains(a.instructions, Marker)
  {
    var content := Trim(reply, cc.isSpace);
    var parts := Split(content, Marker);
    TrimKeepsAbsence(parts[0], cc.isSpace, Marker);
    assert |parts[0]| <= |content| by {
      SplitPieces(content, Marker);
    }
    var description := if |parts| > 0 then Trim(parts[0], cc.isSpace) else NoDescription;
    var instructions :=
      if |parts| > 1 then
        TrimKeepsAbsence(parts[1], cc.isSpace, Marker);
        Trim(parts[1], cc.isSpace)
      else NoInstructions;
    Annotation(description, instructions)
  }

  /** The description is always the stripped text before the first
      marker (all of the reply when there is none): `split` returns at
      least one piece, so its default is never used. */
  lemma DescriptionBeforeFirstMarker(cc: CharClasses, reply: string)
    ensures SplitDescription(cc, reply).description == Trim(UpTo(Trim(reply, cc.isSpace), Marker), cc.isSpace)
  {
    var content := Trim(reply, cc.isSpace);
    SplitPieces(content, Marker);
  }

  /** A reply without the marker is all description. */
  lemma UnmarkedReply(cc: CharClasses, reply: string)
    requires !Contains(Trim(reply, cc.isSpace), Marker)
    ensures SplitDescription(cc, reply) == Annotation(Trim(reply, cc.isSpace), NoInstructions)
  {
    var content := Trim(reply, cc.isSpace);
    SplitPieces(content, Marker);
  }

  /** A reply that strips to a marker-free description, the marker and
      more text: the description is the part before the marker, the
      instructions are what follows it up to any further marker. */
  lemma MarkedReply(cc: CharClasses, reply: string, d: string, after: string)
    requires Trim(reply, cc.isSpace) == d + Marker + after
    requires !Contains(d, Marker)
    ensures SplitDescription(cc, reply) == Annotation(Trim(d, cc.isSpace), Trim(UpTo(after, Marker), cc.isSpace))
  {
    var content := d + Marker + after;
    MarkerStartsOnce();
    FirstOccurrenceAfter(d, Marker, after);
    SplitPieces(content, Marker);
    assert content[..|d|] == d;
    assert content[|d| + |Marker|..] == after;
  }

  /** Round trip: a reply that strips to description, marker and
      instructions, neither holding the marker, gives back both texts
      (stripped). */
  lemma DescriptionRoundTrip(cc: CharClasses, reply: string, d: string, i: string)
    requires Trim(reply, cc.isSpace) == d + Marker + i
    requires !Contains(d, Marker) && !Contains(i, Marker)
    ensures SplitDescription(cc, reply) == Annotation(Trim(d, cc.isSpace), Trim(i, cc.isSpace))
  {
    MarkedReply(cc, reply, d, i);
    UpToAbsent(i, Marker);
  }

  /** Only the text up to a second marker is kept as instructions; what
      follows it is dropped. */
  lemma LaterMarkersDropped(cc: CharClasses, reply: string, d: string, i: string, rest: string)
    requires Trim(reply, cc.isSpace) == d + Marker + (i + Marker + rest)
    requires !Contains(d, Marker) && !Contains(i, Marker)
    ensures SplitDescription(cc, reply).instructions == Trim(i, cc.isSpace)
  {
    MarkedReply(cc, reply, d, i + Marker + rest);
    MarkerStartsOnce();
    FirstOccurrenceAfter(i, Marker, rest);
    assert (i + Marker + rest)[..|i|] == i;
  }

  /** `generate_description_and_instructions`: `ask` is the chat call and
      reading its reply, `None` when either raises (the reply text can be
      `None` too); the `except` branch returns both defaults. */
  function Describe(cc: CharClasses, ask: string -> Option<string>, name: string): (a: Annotation)
    ensures ask(name).None? ==> a == Annotation(NoDescription, NoInstructions)
    ensures ask(name).Some? ==> !Contains(a.description, Marker)
  {
    match ask(name)
    case None => Annotation(NoDescription, NoInstructions)
    case Some(reply) => SplitDescription(cc, reply)
  }

  /** `os.path.join(memes_folder, f"{meme_id}_{sanitized_name}.jpg")` */
  function ImagePath(cc: CharClasses, id: Option<string>, name: string): string {
    PathJoin(MemesFolder, MemeFileName(cc, id, name))
  }

  /** The image of a named meme is on disk (`os.path.exists`). */
  predicate ImageFound(cc: CharClasses, present: string -> bool, m: RawMeme) {
    m.name.Text? && present(ImagePath(cc, Get(m.id), m.name.text))
  }

  /** The record for one named meme whose image was found. */
  function Annotate(cc: CharClasses, ask: string -> Option<string>, m: RawMeme): (e: AnnotatedMeme)
    requires m.name.Text?
    ensures e.id == Get(m.id) && e.name == m.name.text
    ensures e.templateUrl == ImagePath(cc, Get(m.id), m.name.text)
  {
    var a := Describe(cc, ask, m.name.text);
    AnnotatedMeme(Get(m.id), m.name.text, ImagePath(cc, Get(m.id), m.name.text), a.description, a.instructions)
  }

  predicate AllNamed(memes: seq<RawMeme>) {
    forall k :: 0 <= k < |memes| ==> memes[k].name.Text?
  }

  /** The script's loop over the catalog's memes, up to the save. */
  function AnnotateAll(cc: CharClasses, present: string -> bool, ask: string -> Option<string>,
                       memes: seq<RawMeme>): (r: Result<seq<AnnotatedMeme>, ScriptError>)
    ensures r.Success? ==> |r.value| <= |memes|
    decreases |memes|
  {
    if memes == [] then Success([])
    else
      var m := memes[0];
      if !m.name.Text? then Failure(NameMissing)
      else match AnnotateAll(cc, present, ask, memes[1..])
        case Failure(e) => Failure(e)
        case Success(rest) =>
          if ImageFound(cc, present, m) then Success([Annotate(cc, ask, m)] + rest)
          else Success(rest)
  }

  /** The script saves its output exactly when every meme has a name. */
  lemma {:induction false} SavesIffAllNamed(cc: CharClasses, present: string -> bool,
                                            ask: string -> Option<string>, memes: seq<RawMeme>)
    ensures AnnotateAll(cc, present, ask, memes).Success? <==> AllNamed(memes)
    decreases |memes|
  {
    if memes != [] {
      SavesIffAllNamed(cc, present, ask, memes[1..]);
      assert AllNamed(memes) <==> memes[0].name.Text? && AllNamed(memes[1..]) by {
        forall k | 1 <= k < |memes|
          ensures memes[k] == memes[1..][k - 1]
        {
        }
      }
    }
  }

  /** The saved records are those of the memes whose image was found, in
      catalog order. */
  lemma {:induction false} AnnotateAllSelects(cc: CharClasses, present: string -> bool,
                                              ask: string -> Option<string>, memes: seq<RawMeme>)
    requires AnnotateAll(cc, present, ask, memes).Success?
    ensures var found := Filter(m => ImageFound(cc, present, m), memes);
      var out := AnnotateAll(cc, present, ask, memes).value;
      && |out| == |found|
      && forall k :: 0 <= k < |found| ==> found[k].name.Text? && out[k] == Annotate(cc, ask, found[k])
    decreases |memes|
  {
    var keep := m => ImageFound(cc, present, m);
    if memes != [] {
      var m := memes[0];
      AnnotateAllSelects(cc, present, ask, memes[1..]);
      var found := Filter(keep, memes);
      var tail := Filter(keep, memes[1..]);
      var out := AnnotateAll(cc, present, ask, memes).value;
      var later := AnnotateAll(cc, present, ask, memes[1..]).value;
      if keep(m) {
        assert found == [m] + tail;
        assert out == [Annotate(cc, ask, m)] + later;
        forall k | 0 <= k < |found|
          ensures found[k].name.Text? && out[k] == Annotate(cc, ask, found[k])
        {
          if k > 0 {
            assert found[k] == tail[k - 1];
            assert out[k] == later[k - 1];
          }
        }
      } else {
        assert found == tail;
        assert out == later;
      }
    }
  }

  /** Every saved record points at an image that was on disk. */
  lemma SavedImagesExist(cc: CharClasses, present: string -> bool,
                         ask: string -> Option<string>, memes: seq<RawMeme>)
    requires AnnotateAll(cc, present, ask, memes).Success?
    ensures var out := AnnotateAll(cc, present, ask, memes).value;
      forall k :: 0 <= k < |out| ==> present(out[k].templateUrl)
  {
    AnnotateAllSelects(cc, present, ask, memes);
    var found := Filter(m => ImageFound(cc, present, m), memes);
    var out := AnnotateAll(cc, present, ask, memes).value;
    forall k | 0 <= k < |out|
      ensures present(out[k].templateUrl)
    {
      assert ImageFound(cc, present, found[k]);
    }
  }
}

=== FILE: downloads.dfy ===
/** scripts/download_memes.py: for each meme of the catalog JSON, in order,
    build the target file from the id and the sanitised name and fetch the
    url if there is one. `download_image` catches only the request library's
    errors: a failed request is reported and skipped. An error while opening
    or writing the file (an `OSError`) escapes and ends the script. Whether
    a download gets through is a parameter; the model describes which files
    are requested, in which order, and where the loop stops. */
module DownloadMemes {
  import opened Wrappers
  import opened Sequences
  import opened MemeFiles
  import opened Decimal

  const OutputDirectory := "../downloaded_memes"
  const UnknownName := "unknown"

  /** One request: the url, and the id and name its file is named after
      (`Target` gives the file). */
  datatype Download = Download(url: string, id: Option<string>, name: string)

  datatype DownloadRun = DownloadRun(downloads: seq<Download>, crashed: bool)

  /** The outcome of `download_image` for one request: `true` when it
      returns (the file was written, or the request failed and was
      reported), `false` when opening or writing the file raised. */
  type Completes = Download -> bool

  /** `if url:` — an absent, `null` or empty url is skipped. */
  predicate HasUrl(m: RawMeme) {
    m.url.Text? && m.url.text != ""
  }

  /** `meme.get("name", "unknown")`: only an absent key takes the default. */
  function NameOrUnknown(m: RawMeme): (name: Option<string>)
    ensures name.None? <==> m.name.Null?
    ensures m.name.Absent? ==> name == Some(UnknownName)
    ensures m.name.Text? ==> name == Get(m.name)
  {
    match m.name
    case Absent => Some(UnknownName)
    case Null => None
    case Text(t) => Some(t)
  }

  /** The request made for one meme whose name is present. */
  function DownloadFor(m: RawMeme): (d: Download)
    requires HasUrl(m) && !m.name.Null?
    ensures d.url != ""
  {
    Download(m.url.text, Get(m.id), NameOrUnknown(m).value)
  }

  /** `os.path.join(output_directory, f"{image_id}_{sanitized_name}.jpg")` */
  function Target(cc: CharClasses, d: Download): string {
    PathJoin(OutputDirectory, MemeFileName(cc, d.id, d.name))
  }

  /** The script stops at this meme: its name is `null` (`.replace` raises
      before the url is looked at), or its download raised. */
  predicate Stops(completes: Completes, m: RawMeme) {
    m.name.Null? || (HasUrl(m) && !completes(DownloadFor(m)))
  }

  /** The script's loop over the memes, from the first one not yet
      visited. */
  function DownloadPlan(completes: Completes, memes: seq<RawMeme>): (run: DownloadRun)
    ensures |run.downloads| <= |memes|
    ensures forall k :: 0 <= k < |run.downloads| ==> run.downloads[k].url != ""
    decreases |memes|
  {
    if memes == [] then DownloadRun([], false)
    else
      var m := memes[0];
      if m.name.Null? then DownloadRun([], true)
      else if !HasUrl(m) then DownloadPlan(completes, memes[1..])
      else
        var d := DownloadFor(m);
        if !completes(d) then DownloadRun([d], true)
        else
          var rest := DownloadPlan(completes, memes[1..]);
          DownloadRun([d] + rest.downloads, rest.crashed)
  }

  /** The memes the loop gets through: `c` is the position of the first
      meme it stops at (`|memes|` when there is none). */
  predicate VisitedPrefix(completes: Completes, memes: seq<RawMeme>, c: nat) {
    && c <= |memes|
    && (forall j :: 0 <= j < c ==> !Stops(completes, memes[j]))
    && (c < |memes| ==> Stops(completes, memes[c]))
  }

  /** Dropping the first visited meme leaves the rest of the visited
      prefix. */
  lemma VisitedPrefixTail(completes: Completes, memes: seq<RawMeme>, c: nat)
    requires VisitedPrefix(completes, memes, c) && c > 0
    ensures VisitedPrefix(completes, memes[1..], c - 1)
    ensures memes[..c] == [memes[0]] + memes[1..][..c - 1]
  {
    forall j | 0 <= j < c - 1
      ensures !Stops(completes, memes[1..][j])
    {
      assert memes[1..][j] == memes[j + 1];
    }
  }

  /** The script dies exactly when it meets a meme it stops at: a `null`
      name, or a download whose file could not be written. */
  lemma {:induction false} CrashesWhereLoopStops(completes: Completes, memes: seq<RawMeme>, c: nat)
    requires VisitedPrefix(completes, memes, c)
    ensures DownloadPlan(completes, memes).crashed <==> c < |memes|
    decreases |memes|
  {
    if memes != [] && c > 0 {
      VisitedPrefixTail(completes, memes, c);
      CrashesWhereLoopStops(completes, memes[1..], c - 1);
    }
  }

  /** A `null` name anywhere in the catalog kills the script, whatever the
      downloads do. */
  lemma {:induction false} CrashesOnNullName(completes: Completes, memes: seq<RawMeme>, j: nat)
    requires j < |memes| && memes[j].name.Null?
    ensures DownloadPlan(completes, memes).crashed
    decreases |memes|
  {
    if j > 0 && !Stops(completes, memes[0]) {
      assert memes[1..][j - 1] == memes[j];
      CrashesOnNullName(completes, memes[1..], j - 1);
    }
  }

  /** When every download returns, the script dies exactly when some name
      is `null`. */
  lemma {:induction false} CompletedRunCrashesIffNullName(completes: Completes, memes: seq<RawMeme>)
    requires forall k :: 0 <= k < |memes| && HasUrl(memes[k]) && !memes[k].name.Null? ==> completes(DownloadFor(memes[k]))
    ensures DownloadPlan(completes, memes).crashed <==> exists j :: 0 <= j < |memes| && memes[j].name.Null?
    decreases |memes|
  {
    if memes != [] {
      forall k | 0 <= k < |memes[1..]| && HasUrl(memes[1..][k]) && !memes[1..][k].name.Null?
        ensures completes(DownloadFor(memes[1..][k]))
      {
        assert memes[1..][k] == memes[k + 1];
      }
      CompletedRunCrashesIffNullName(completes, memes[1..]);
      if exists j :: 0 <= j < |memes[1..]| && memes[1..][j].name.Null? {
        var j :| 0 <= j < |memes[1..]| && memes[1..][j].name.Null?;
        assert memes[j + 1].name.Null?;
      }
      if exists j :: 0 <= j < |memes| && memes[j].name.Null? {
        var j :| 0 <= j < |memes| && memes[j].name.Null?;
        if j > 0 {
          assert memes[1..][j - 1].name.Null?;
        }
      }
    }
  }

  /** The memes whose download is started: those with a url among the ones
      the loop gets through, then the one it stops at when that stop is a
      download that raised. */
  function Started(memes: seq<RawMeme>, c: nat): seq<RawMeme>
    requires c <= |memes|
  {
    Filter(HasUrl, memes[..c]) + (if c < |memes| && !memes[c].name.Null? then [memes[c]] else [])
  }

  /** Every meme whose download is started has a url and a name. */
  lemma StartedAreNamed(completes: Completes, memes: seq<RawMeme>, c: nat)
    requires VisitedPrefix(completes, memes, c)
    ensures forall k :: 0 <= k < |Started(memes, c)| ==>
      HasUrl(Started(memes, c)[k]) && !Started(memes, c)[k].name.Null?
  {
    var kept := Filter(HasUrl, memes[..c]);
    var started := Started(memes, c);
    forall k | 0 <= k < |started|
      ensures HasUrl(started[k]) && !started[k].name.Null?
    {
      if k < |kept| {
        assert started[k] == kept[k];
        assert kept[k] in memes[..c];
      }
    }
  }

  /** One step of the loop through a meme it gets past: that meme's
      download, if it has a url, comes first. */
  lemma StartedStep(completes: Completes, memes: seq<RawMeme>, c: nat)
    requires VisitedPrefix(completes, memes, c) && c > 0
    ensures VisitedPrefix(completes, memes[1..], c - 1)
    ensures Started(memes, c)
         == (if HasUrl(memes[0]) then [memes[0]] else []) + Started(memes[1..], c - 1)
  {
    var m := memes[0];
    VisitedPrefixTail(completes, memes, c);
    var rest := memes[1..][..c - 1];
    FilterConcat(HasUrl, [m], rest);
    assert [m][1..] == [];
    assert c < |memes| ==> memes[c] == memes[1..][c - 1];
  }

  /** The downloads started are exactly the visited memes with a url, in
      catalog order, then the download that raised, if that is where the
      loop stopped; each is fetched from its url into its sanitised file. */
  lemma {:induction false} DownloadPlanSelects(completes: Completes, memes: seq<RawMeme>, c: nat)
    requires VisitedPrefix(completes, memes, c)
    ensures forall k :: 0 <= k < |Started(memes, c)| ==>
      HasUrl(Started(memes, c)[k]) && !Started(memes, c)[k].name.Null?
    ensures var run := DownloadPlan(completes, memes);
      var wanted := Started(memes, c);
      && |run.downloads| == |wanted|
      && (forall k :: 0 <= k < |wanted| ==> run.downloads[k] == DownloadFor(wanted[k]))
    decreases |memes|
  {
    StartedAreNamed(completes, memes, c);
    var wanted := Started(memes, c);
    var run := DownloadPlan(completes, memes);
    if memes == [] {
    } else if c == 0 {
      assert memes[..0] == [];
      assert Filter(HasUrl, memes[..0]) == [];
      if !memes[0].name.Null? {
        assert wanted == [memes[0]];
      }
    } else {
      var m := memes[0];
      StartedStep(completes, memes, c);
      DownloadPlanSelects(completes, memes[1..], c - 1);
      var tail := Started(memes[1..], c - 1);
      var later := DownloadPlan(completes, memes[1..]).downloads;
      if HasUrl(m) {
        assert run.downloads == [DownloadFor(m)] + later;
        forall k | 0 <= k < |wanted|
          ensures run.downloads[k] == DownloadFor(wanted[k])
        {
          if k > 0 {
            assert wanted[k] == tail[k - 1];
            assert run.downloads[k] == later[k - 1];
          }
        }
      } else {
        assert wanted == tail;
        assert run.downloads == later;
      }
    }
  }

  /** Files of memes with different all-digit ids never overwrite each
      other. */
  lemma DistinctIdsDistinctFiles(cc: CharClasses, m1: RawMeme, m2: RawMeme)
    requires HasUrl(m1) && !m1.name.Null? && HasUrl(m2) && !m2.name.Null?
    requires m1.id.Text? && m2.id.Text? && m1.id != m2.id
    requires AllDigits(m1.id.text) && AllDigits(m2.id.text)
    ensures Target(cc, DownloadFor(m1)) != Target(cc, DownloadFor(m2))
  {
    var d1 := DownloadFor(m1);
    var d2 := DownloadFor(m2);
    DigitIdsKeepFilesApart(cc, m1.id.text, d1.name, m2.id.text, d2.name);
    DigitIdTarget(cc, m1.id.text, d1);
    DigitIdTarget(cc, m2.id.text, d2);
  }

  /** A file named after an all-digit id stays inside the output
      directory. */
  lemma DigitIdTarget(cc: CharClasses, id: string, d: Download)
    requires d.id == Some(id) && AllDigits(id)
    ensures Target(cc, d) == OutputDirectory + "/" + MemeFileName(cc, d.id, d.name)
  {
    var f := MemeFileName(cc, d.id, d.name);
    assert f[..|id| + 1] == id + "_";
    if |id| > 0 {
      assert f[0] == id[0] && IsDigit(id[0]);
    }
  }
}

=== FILE: fontfit.dfy ===
/** Font-size selection (lib/image-utils.ts): the caption's longest line is
    measured with the 128, 64 and 32 point fonts in turn, and the first size
    whose measured width is at most the image width less a 60 pixel margin
    is kept; 32 is kept even when it overflows. Any failure while loading a
    font or measuring falls back to the 64 point font. */
module FontFit {
  import opened Wrappers

  /** The point sizes for which a white bitmap font is bundled. */
  type FontSize = s: nat | s == 32 || s == 64 || s == 128 witness 32

  /** Jimp's `measureText` for the font of a given size: the rendered width
      of a string in pixels. It is a foreign call, so the model takes it as
      a parameter. */
  type Measure = (FontSize, string) -> nat

  /** Candidate sizes, largest first. */
  const Ladder: seq<FontSize> := [128, 64, 32]

  /** Horizontal room the text gets: the image width less this margin. */
  const SideMargin := 60

  /** The size used when loading or measuring fails. */
  const FallbackSize: FontSize := 64

  function TextLimit(width: nat): int {
    width - SideMargin
  }

  predicate Fits(measure: Measure, size: FontSize, line: string, limit: int) {
    measure(size, line) <= limit
  }

  /** Whether the `try` block throws and control reaches the `catch`: the
      128 font fails to load, the longest line is `undefined`, or a smaller
      font the ladder goes on to fails to load. */
  predicate LadderThrows(fontLoads: FontSize -> bool, measure: Measure,
                         longest: Option<string>, limit: int) {
    || !fontLoads(128)
    || longest.None?
    || (!Fits(measure, 128, longest.value, limit)
        && (!fontLoads(64) || (!Fits(measure, 64, longest.value, limit) && !fontLoads(32))))
  }

  /** The size the source settles on. `fontLoads(s)` says whether the
      ladder's load of the font of size `s` succeeds and `reloads` whether
      the `catch` branch's reload succeeds; `longest` is `None` when the
      source's longest line is `undefined`, which makes `measureText`
      throw. */
  function SelectFontSize(fontLoads: FontSize -> bool, reloads: bool, measure: Measure,
                          longest: Option<string>, limit: int): (r: Option<FontSize>)
    // With every font available, the result is the largest size that fits,
    // or the smallest size when none does.
    ensures fontLoads(128) && fontLoads(64) && fontLoads(32) && longest.Some? ==>
      && r.Some?
      && (Fits(measure, r.value, longest.value, limit) || r.value == 32)
      && forall s :: s in Ladder && s > r.value ==> !Fits(measure, s, longest.value, limit)
    // A failure before anything was measured lands on the fallback size.
    ensures !fontLoads(128) || longest.None? ==> r == (if reloads then Some(FallbackSize) else None)
    // No font at all exactly when the ladder throws and the reload fails.
    ensures r.None? <==> LadderThrows(fontLoads, measure, longest, limit) && !reloads
    // A size other than the fallback is only kept after it was loaded and,
    // for 128, after it was seen to fit.
    ensures r == Some(128) ==> fontLoads(128) && longest.Some? && Fits(measure, 128, longest.value, limit)
    ensures r == Some(32) ==> fontLoads(32) && longest.Some? && !Fits(measure, 64, longest.value, limit)
  {
    var fallback := if reloads then Some(FallbackSize) else None;
    if !fontLoads(128) || longest.None? then fallback
    else if Fits(measure, 128, longest.value, limit) then Some(128)
    else if !fontLoads(64) then fallback
    else if Fits(measure, 64, longest.value, limit) then Some(64)
    else if !fontLoads(32) then fallback
    else Some(32)
  }

  /** When the reload in the `catch` behaves like the ladder's load of the
      same font, the selection fails exactly when the 64 point font does
      not load and 128 was not kept. */
  lemma SameLoadSameOutcome(fontLoads: FontSize -> bool, measure: Measure,
                            longest: Option<string>, limit: int)
    ensures var r := SelectFontSize(fontLoads, fontLoads(64), measure, longest, limit);
      r.None? <==> !fontLoads(64) && !(fontLoads(128) && longest.Some? && Fits(measure, 128, longest.value, limit))
  {
  }

  /** A ladder load of 64 that fails followed by a reload that succeeds
      renders at 64, which a single answer per size could not express. */
  lemma ReloadRecovers(fontLoads: FontSize -> bool, measure: Measure, line: string, limit: int)
    requires fontLoads(128) && !Fits(measure, 128, line, limit) && !fontLoads(64)
    ensures SelectFontSize(fontLoads, true, measure, Some(line), limit) == Some(64)
    ensures SelectFontSize(fontLoads, false, measure, Some(line), limit) == None
  {
  }

  /** Reference rule: the first size of a descending ladder at which `line`
      fits, or the ladder's last size when it fits nowhere. */
  function FirstFitting(ladder: seq<FontSize>, measure: Measure, line: string, limit: int): (s: FontSize)
    requires |ladder| > 0
    ensures s in ladder
    decreases |ladder|
  {
    if |ladder| == 1 || Fits(measure, ladder[0], line, limit) then ladder[0]
    else FirstFitting(ladder[1..], measure, line, limit)
  }

  /** With all fonts loadable and a line to measure, the source's nested
      checks compute the reference rule over the 128/64/32 ladder. */
  lemma SelectFollowsLadder(fontLoads: FontSize -> bool, reloads: bool, measure: Measure,
                            line: string, limit: int)
    requires fontLoads(128) && fontLoads(64) && fontLoads(32)
    ensures SelectFontSize(fontLoads, reloads, measure, Some(line), limit) == Some(FirstFitting(Ladder, measure, line, limit))
  {
    assert Ladder[1..] == [64, 32];
    assert Ladder[1..][1..] == [32];
  }

  /** A line that fits at 128 points gets 128 points (if its font loads). */
  lemma FitsAtLargestSelectsLargest(fontLoads: FontSize -> bool, reloads: bool, measure: Measure,
                                    line: string, limit: int)
    requires fontLoads(128) && Fits(measure, 128, line, limit)
    ensures SelectFontSize(fontLoads, reloads, measure, Some(line), limit) == Some(128)
  {
  }
}

=== FILE: imageutils.dfy ===
/** `generateMemeImage` (lib/image-utils.ts): checks that the template file
    exists, reads it, splits and fits the caption, wraps and places the top
    and bottom blocks, and writes the result under a name built from the
    template id and the clock. Every collaborator the function reaches
    (file system, Jimp, the clock) is a field of `Environment`. */
module ImageUtils {
  import opened Wrappers
  import opened Strings
  import opened FontFit
  import opened CaptionText
  import opened TextWrap
  import opened Placement
  import opened OutputNaming
  import opened Decimal

  datatype Bitmap = Bitmap(width: nat, height: nat)

  datatype Environment = Environment(
    fileExists: string -> bool,          // fs.promises.access on the template path
    readImage: string -> Option<Bitmap>, // Jimp.read; None when it throws
    fontLoads: FontSize -> bool,         // loadFont of the bundled white font in the try
    fallbackReloads: bool,               // loadFont of the 64 point font in the catch
    measure: Measure,                    // measureText
    now: nat,                            // Date.now()
    directoryReady: bool,                // mkdir of public/generated succeeds
    writeSucceeds: bool)                 // image.write succeeds

  /** The ways `generateMemeImage` throws. */
  datatype RenderError =
    | TemplateNotFound(templateUrl: string)
    | ImageUnreadable
    | CaptionNotText    // `caption.split` on `undefined`
    | FontUnavailable   // the fallback font failed to load as well
    | DirectoryNotCreated
    | WriteFailed

  const TemplateNotFoundPrefix := "Template file not found: "
  const DirectoryNotCreatedMessage := "Failed to create generated directory"

  /** The messages the source writes itself; the others come from Jimp or
      the runtime and are not part of this model. */
  function Message(e: RenderError): string {
    match e
    case TemplateNotFound(url) => TemplateNotFoundPrefix + url
    case DirectoryNotCreated => DirectoryNotCreatedMessage
    case _ => ""
  }

  datatype Rendered = Rendered(fontSize: FontSize, draws: seq<Draw>, name: string, file: string)

  /** The template's path below `public/`: the first `/public` is removed
      from the catalog's url. */
  function TemplateAsset(templateUrl: string): string {
    ReplaceFirst(templateUrl, "/public", "")
  }

  /** Lines of the top block: drawn only for a non-empty top text. */
  function TopLines(env: Environment, size: FontSize, width: nat, lines: CaptionLines): seq<string> {
    if lines.top != "" then WrapLines(env.measure, size, TextLimit(width), lines.top) else []
  }

  /** Lines of the bottom block: drawn only when a second line exists and
      is non-empty after trimming. */
  function BottomLines(env: Environment, size: FontSize, width: nat, lines: CaptionLines): seq<string> {
    match lines.bottom
    case Some(b) => if b != "" then WrapLines(env.measure, size, TextLimit(width), b) else []
    case None => []
  }

  function BottomY(env: Environment, size: FontSize, bitmap: Bitmap, lines: CaptionLines): Ordinate {
    BottomStart(bitmap.width, bitmap.height, size, env.measure(size, lines.bottom.GetOr("")))
  }

  /** All `image.print` calls, top block first. */
  function CaptionDraws(env: Environment, size: FontSize, bitmap: Bitmap, lines: CaptionLines): seq<Draw> {
    Block(TopLines(env, size, bitmap.width, lines), Pixel(TopOffset), size)
    + Block(BottomLines(env, size, bitmap.width, lines), BottomY(env, size, bitmap, lines), size)
  }

  /** The size `generateMemeImage` settles on for a caption and template. */
  function RenderFont(env: Environment, bitmap: Bitmap, text: string): Option<FontSize> {
    var lines := SplitCaption(text);
    SelectFontSize(env.fontLoads, env.fallbackReloads, env.measure,
                   LongestLine(lines.top, lines.bottom), TextLimit(bitmap.width))
  }

  function GenerateMemeImage(env: Environment, templateUrl: string, caption: Option<string>,
                             memeId: string): (r: Result<Rendered, RenderError>)
    // A missing template is reported before anything else is done.
    ensures !env.fileExists(TemplateAsset(templateUrl)) ==> r == Failure(TemplateNotFound(templateUrl))
    // An undefined caption throws once the template has been read.
    ensures (env.fileExists(TemplateAsset(templateUrl)) && env.readImage(TemplateAsset(templateUrl)).Some?
             && caption.None?) ==> r == Failure(CaptionNotText)
    // The render succeeds exactly when the template is there and reads,
    // the caption is text, a font is found, and the directory and the
    // write work.
    ensures r.Success? <==>
      && env.fileExists(TemplateAsset(templateUrl))
      && env.readImage(TemplateAsset(templateUrl)).Some?
      && caption.Some?
      && RenderFont(env, env.readImage(TemplateAsset(templateUrl)).value, caption.value).Some?
      && env.directoryReady && env.writeSucceeds
    // In particular a working reload of the fallback font is enough for
    // the font step.
    ensures && env.fileExists(TemplateAsset(templateUrl))
            && env.readImage(TemplateAsset(templateUrl)).Some?
            && caption.Some?
            && env.fallbackReloads
            && env.directoryReady && env.writeSucceeds
            ==> r.Success?
    // The returned name is the id and the clock; the file is that name
    // with `.jpg`, under the generated directory.
    ensures r.Success? ==> r.value.name == memeId + "-" + DecimalString(env.now)
    ensures r.Success? ==> r.value.file == GeneratedDirectory + r.value.name + ".jpg"
  {
    var asset := TemplateAsset(templateUrl);
    if !env.fileExists(asset) then Failure(TemplateNotFound(templateUrl))
    else match env.readImage(asset)
      case None => Failure(ImageUnreadable)
      case Some(bitmap) =>
        match caption
        case None => Failure(CaptionNotText)
        case Some(text) =>
          var lines := SplitCaption(text);
          match RenderFont(env, bitmap, text)
          case None => Failure(FontUnavailable)
          case Some(size) =>
            var draws := CaptionDraws(env, size, bitmap, lines);
            var name := OutputName(memeId, env.now);
            if !env.directoryReady then Failure(DirectoryNotCreated)
            else if !env.writeSucceeds then Failure(WriteFailed)
            else Success(Rendered(size, draws, name, GeneratedFile(name)))
  }

  /** A missing template fails with a message naming the catalog's url,
      one of the two messages the compositor writes itself. */
  lemma MissingTemplateMessage(env: Environment, templateUrl: string, caption: Option<string>,
                               memeId: string)
    requires !env.fileExists(TemplateAsset(templateUrl))
    ensures var r := GenerateMemeImage(env, templateUrl, caption, memeId);
      r.Failure? && Message(r.error) == "Template file not found: " + templateUrl
  {
  }

  /** A failed `mkdir` of the generated directory, once the image was
      composed, fails with the compositor's fixed message. */
  lemma MkdirFailureMessage(env: Environment, templateUrl: string, text: string, memeId: string)
    requires env.fileExists(TemplateAsset(templateUrl))
    requires env.readImage(TemplateAsset(templateUrl)).Some?
    requires RenderFont(env, env.readImage(TemplateAsset(templateUrl)).value, text).Some?
    requires !env.directoryReady
    ensures var r := GenerateMemeImage(env, templateUrl, Some(text), memeId);
      r.Failure? && Message(r.error) == "Failed to create generated directory"
  {
  }

  /** A successful render had every collaborator succeed. */
  lemma SuccessNeedsCollaborators(env: Environment, templateUrl: string, caption: Option<string>,
                                  memeId: string)
    requires GenerateMemeImage(env, templateUrl, caption, memeId).Success?
    ensures caption.Some?
    ensures env.fileExists(TemplateAsset(templateUrl)) && env.readImage(TemplateAsset(templateUrl)).Some?
    ensures env.directoryReady && env.writeSucceeds
  {
  }

  // ----- What a successful render draws -----

  /** The bitmap and caption lines behind a successful render. */
  function BitmapOf(env: Environment, templateUrl: string): Bitmap
    requires env.readImage(TemplateAsset(templateUrl)).Some?
  {
    env.readImage(TemplateAsset(templateUrl)).value
  }

  /** A successful render draws exactly the caption's two blocks. */
  lemma SuccessDraws(env: Environment, templateUrl: string, caption: Option<string>, memeId: string)
    requires GenerateMemeImage(env, templateUrl, caption, memeId).Success?
    ensures caption.Some? && env.readImage(TemplateAsset(templateUrl)).Some?
    ensures var out := GenerateMemeImage(env, templateUrl, caption, memeId).value;
      out.draws == CaptionDraws(env, out.fontSize, BitmapOf(env, templateUrl), SplitCaption(caption.value))
  {
  }

  /** The top block comes first: its k-th wrapped line is drawn at
      `30 + k * fontSize * 1.5`. */
  lemma TopBlockLayout(env: Environment, size: FontSize, bitmap: Bitmap, lines: CaptionLines)
    ensures var draws := CaptionDraws(env, size, bitmap, lines);
      var top := TopLines(env, size, bitmap.width, lines);
      && |draws| == |top| + |BottomLines(env, size, bitmap.width, lines)|
      && forall k :: 0 <= k < |top| ==> draws[k] == Draw(top[k], Pixel(TopOffset + k * LineHeight(size)))
  {
    var top := TopLines(env, size, bitmap.width, lines);
    var topDraws := Block(top, Pixel(TopOffset), size);
    var bottomDraws := Block(BottomLines(env, size, bitmap.width, lines), BottomY(env, size, bitmap, lines), size);
    var draws := topDraws + bottomDraws;
    assert CaptionDraws(env, size, bitmap, lines) == draws;
    forall k | 0 <= k < |top|
      ensures draws[k] == topDraws[k]
    {
    }
  }

  /** The bottom block follows the top block: its k-th wrapped line is
      drawn `k` line heights below the bottom start, which is the image
      height less 30 less the estimated number of lines times the line
      height (not finite for an image exactly 60 pixels wide). */
  lemma BottomBlockLayout(env: Environment, size: FontSize, bitmap: Bitmap, lines: CaptionLines)
    ensures var draws := CaptionDraws(env, size, bitmap, lines);
      var n := |TopLines(env, size, bitmap.width, lines)|;
      var bottom := BottomLines(env, size, bitmap.width, lines);
      var y0 := BottomStart(bitmap.width, bitmap.height, size, env.measure(size, lines.bottom.GetOr("")));
      && |draws| == n + |bottom|
      && forall k :: 0 <= k < |bottom| ==> draws[n + k] == Draw(bottom[k], Shift(y0, k * LineHeight(size)))
  {
    var topDraws := Block(TopLines(env, size, bitmap.width, lines), Pixel(TopOffset), size);
    var bottom := BottomLines(env, size, bitmap.width, lines);
    var y0 := BottomY(env, size, bitmap, lines);
    var bottomDraws := Block(bottom, y0, size);
    var draws := topDraws + bottomDraws;
    assert CaptionDraws(env, size, bitmap, lines) == draws;
    forall k | 0 <= k < |bottom|
      ensures draws[|topDraws| + k] == bottomDraws[k]
    {
    }
  }

  /** The bottom start is estimated from the unwrapped text. When wrapping
      needs more lines than that estimate, the last bottom line starts at or
      below 30 pixels above the bottom edge, so any ladder font (32 points or
      more) runs past the image. */
  lemma LastBottomLinePastEstimate(env: Environment, size: FontSize, bitmap: Bitmap, lines: CaptionLines)
    requires bitmap.width > SideMargin
    requires |BottomLines(env, size, bitmap.width, lines)|
             > EstimatedLines(env.measure(size, lines.bottom.GetOr("")), bitmap.width)
    ensures var draws := CaptionDraws(env, size, bitmap, lines);
      && |draws| > 0
      && draws[|draws| - 1].y.Pixel?
      && draws[|draws| - 1].y.y >= bitmap.height - BottomOffset
  {
    BottomBlockLayout(env, size, bitmap, lines);
    var k := |BottomLines(env, size, bitmap.width, lines)| - 1;
    StackedPastEstimate(bitmap.width, bitmap.height, size, env.measure(size, lines.bottom.GetOr("")), k);
  }

  /** A caption without a newline draws no bottom block. */
  lemma SingleLineDrawsTopOnly(env: Environment, templateUrl: string, text: string, memeId: string)
    requires '\n' !in text
    requires GenerateMemeImage(env, templateUrl, Some(text), memeId).Success?
    ensures var out := GenerateMemeImage(env, templateUrl, Some(text), memeId).value;
      out.draws == Block(TopLines(env, out.fontSize, BitmapOf(env, templateUrl).width, SplitCaption(text)),
                         Pixel(TopOffset), out.fontSize)
  {
    var out := GenerateMemeImage(env, templateUrl, Some(text), memeId).value;
    var lines := SplitCaption(text);
    assert BottomLines(env, out.fontSize, BitmapOf(env, templateUrl).width, lines) == [];
  }

  /** A caption whose second line is empty (`"ONLY TOP\n"`) draws only the
      wrapped first line. */
  lemma EmptyBottomLineNotDrawn(env: Environment, templateUrl: string, top: string, memeId: string)
    requires '\n' !in top
    requires GenerateMemeImage(env, templateUrl, Some(top + "\n"), memeId).Success?
    ensures var out := GenerateMemeImage(env, templateUrl, Some(top + "\n"), memeId).value;
      var width := BitmapOf(env, templateUrl).width;
      var topText := TrimJs(top);
      out.draws == Block(if topText != "" then WrapLines(env.measure, out.fontSize, TextLimit(width), topText) else [],
                         Pixel(TopOffset), out.fontSize)
  {
    SuccessDraws(env, templateUrl, Some(top + "\n"), memeId);
    var out := GenerateMemeImage(env, templateUrl, Some(top + "\n"), memeId).value;
    var bitmap := BitmapOf(env, templateUrl);
    TwoLineCaption(top, "", "");
    assert top + "\n" + "" == top + "\n";
    assert TrimJs("") == "";
    var lines := SplitCaption(top + "\n");
    assert lines == CaptionLines(TrimJs(top), Some(""));
    assert BottomLines(env, out.fontSize, bitmap.width, lines) == [];
    var topDraws := Block(TopLines(env, out.fontSize, bitmap.width, lines), Pixel(TopOffset), out.fontSize);
    assert out.draws == topDraws + [];
  }

  /** Every drawn line holding more than one word is within the image
      width less the margin, at the chosen font size. */
  lemma DrawnLinesFit(env: Environment, templateUrl: string, caption: Option<string>, memeId: string)
    requires GenerateMemeImage(env, templateUrl, caption, memeId).Success?
    ensures var out := GenerateMemeImage(env, templateUrl, caption, memeId).value;
      forall k :: 0 <= k < |out.draws| && ' ' in out.draws[k].text ==>
        env.measure(out.fontSize, out.draws[k].text) <= TextLimit(BitmapOf(env, templateUrl).width)
  {
    SuccessDraws(env, templateUrl, caption, memeId);
    var out := GenerateMemeImage(env, templateUrl, caption, memeId).value;
    var bitmap := BitmapOf(env, templateUrl);
    var lines := SplitCaption(caption.value);
    var top := TopLines(env, out.fontSize, bitmap.width, lines);
    var bottom := BottomLines(env, out.fontSize, bitmap.width, lines);
    var topDraws := Block(top, Pixel(TopOffset), out.fontSize);
    var bottomDraws := Block(bottom, BottomY(env, out.fontSize, bitmap, lines), out.fontSize);
    assert out.draws == topDraws + bottomDraws;
    forall k | 0 <= k < |out.draws| && ' ' in out.draws[k].text
      ensures env.measure(out.fontSize, out.draws[k].text) <= TextLimit(bitmap.width)
    {
      if k < |topDraws| {
        assert out.draws[k].text == top[k];
      } else {
        assert out.draws[k].text == bottom[k - |topDraws|];
      }
    }
  }

  /** With every font loadable, the chosen size is the largest ladder size
      at which the longest line fits, or 32 when none does. */
  lemma FontIsLargestFitting(env: Environment, templateUrl: string, text: string, memeId: string)
    requires env.fontLoads(128) && env.fontLoads(64) && env.fontLoads(32)
    requires GenerateMemeImage(env, templateUrl, Some(text), memeId).Success?
    requires var lines := SplitCaption(text); lines.top != "" || lines.bottom.Some?
    ensures var out := GenerateMemeImage(env, templateUrl, Some(text), memeId).value;
      var lines := SplitCaption(text);
      var longest := LongestLine(lines.top, lines.bottom).value;
      var limit := TextLimit(BitmapOf(env, templateUrl).width);
      && (Fits(env.measure, out.fontSize, longest, limit) || out.fontSize == 32)
      && forall s :: s in Ladder && s > out.fontSize ==> !Fits(env.measure, s, longest, limit)
  {
  }

  /** A caption that trims to nothing and has no newline leaves the longest
      line `undefined`; measuring it throws, so the fallback size is used,
      and nothing is drawn. */
  lemma BlankCaptionFallsBack(env: Environment, templateUrl: string, text: string, memeId: string)
    requires '\n' !in text && TrimJs(text) == ""
    requires GenerateMemeImage(env, templateUrl, Some(text), memeId).Success?
    ensures var out := GenerateMemeImage(env, templateUrl, Some(text), memeId).value;
      out.fontSize == FallbackSize && out.draws == []
  {
    SingleLineCaption(text);
  }

  /** Two successful renders of one template at different clock readings
      are written under different names. */
  lemma RenderNamesUnique(env1: Environment, env2: Environment, templateUrl: string,
                          caption1: Option<string>, caption2: Option<string>, memeId: string)
    requires GenerateMemeImage(env1, templateUrl, caption1, memeId).Success?
    requires GenerateMemeImage(env2, templateUrl, caption2, memeId).Success?
    requires env1.now != env2.now
    ensures GenerateMemeImage(env1, templateUrl, caption1, memeId).value.name
         != GenerateMemeImage(env2, templateUrl, caption2, memeId).value.name
  {
    OutputNamesDistinct(memeId, env1.now, memeId, env2.now);
  }
}

=== FILE: memefiles.dfy ===
/** File names of downloaded meme images, shared by scripts/download_memes.py
    and scripts/generate_descriptions.py, which define `sanitize_filename`
    identically: `re.sub(r"[^\w\s-]", "_", name).strip()`. Python's Unicode
    classes `\w` and `\s` are parameters. */
module MemeFiles {
  import opened Wrappers
  import opened Strings
  import opened Decimal

  /** Python's `\w` (word character) and `\s` (whitespace, which is also
      what `str.strip()` removes). */
  datatype CharClasses = CharClasses(isWord: char -> bool, isSpace: char -> bool)

  /** The one fact about Python's classes the proofs use: the underscore
      is a word character. */
  predicate UnderscoreIsWord(cc: CharClasses) {
    cc.isWord('_')
  }

  /** Characters outside `[^\w\s-]`. */
  predicate Allowed(cc: CharClasses, c: char) {
    cc.isWord(c) || cc.isSpace(c) || c == '-'
  }

  /** `re.sub(r"[^\w\s-]", "_", s)`: one underscore per rejected character. */
  function ReplaceRejected(cc: CharClasses, s: string): (r: string)
    ensures |r| == |s|
    ensures forall k :: 0 <= k < |s| ==> r[k] == s[k] || r[k] == '_'
    ensures forall k :: 0 <= k < |s| ==> (r[k] == s[k] <==> Allowed(cc, s[k]) || s[k] == '_')
  {
    seq(|s|, k requires 0 <= k < |s| => if Allowed(cc, s[k]) then s[k] else '_')
  }

  function Sanitize(cc: CharClasses, name: string): (r: string)
    ensures |r| <= |name|
    ensures IsTrimmed(r, cc.isSpace)
  {
    Trim(ReplaceRejected(cc, name), cc.isSpace)
  }

  /** `sanitize_filename` in full: the name with every rejected character
      replaced by `_`, one for one, less its leading and trailing
      whitespace and nothing else. */
  lemma SanitizeReplacesThenStrips(cc: CharClasses, name: string)
    ensures var replaced := ReplaceRejected(cc, name);
      var lead := LeadingSpace(replaced, cc.isSpace);
      var r := Sanitize(cc, name);
      && lead + |r| <= |name|
      && r == replaced[lead..lead + |r|]
      && (forall k :: 0 <= k < lead ==> cc.isSpace(replaced[k]))
      && (forall k :: lead + |r| <= k < |name| ==> cc.isSpace(replaced[k]))
  {
    var replaced := ReplaceRejected(cc, name);
    TrimIsSlice(replaced, cc.isSpace);
    TrimRemovesOnlySpace(replaced, cc.isSpace);
  }

  /** A name without ASCII spaces sanitises to one without. */
  lemma SanitizeKeepsSpaceFree(cc: CharClasses, name: string)
    requires ' ' !in name
    ensures ' ' !in Sanitize(cc, name)
  {
    var replaced := ReplaceRejected(cc, name);
    forall k | 0 <= k < |replaced|
      ensures replaced[k] != ' '
    {
    }
    TrimIsSlice(replaced, cc.isSpace);
  }

  /** Every character that survives is a word character, whitespace or a
      dash. */
  lemma SanitizedCharsAllowed(cc: CharClasses, name: string)
    requires UnderscoreIsWord(cc)
    ensures forall k :: 0 <= k < |Sanitize(cc, name)| ==> Allowed(cc, Sanitize(cc, name)[k])
  {
    var replaced := ReplaceRejected(cc, name);
    var r := Sanitize(cc, name);
    var lead := LeadingSpace(replaced, cc.isSpace);
    TrimIsSlice(replaced, cc.isSpace);
    forall k | 0 <= k < |r|
      ensures Allowed(cc, r[k])
    {
      assert r[k] == replaced[lead + k];
    }
  }

  lemma SanitizeIdempotent(cc: CharClasses, name: string)
    requires UnderscoreIsWord(cc)
    ensures Sanitize(cc, Sanitize(cc, name)) == Sanitize(cc, name)
  {
    var once := Sanitize(cc, name);
    SanitizedCharsAllowed(cc, name);
    assert ReplaceRejected(cc, once) == once;
  }

  /** `name.replace(" ", "_")` */
  function SpacesToUnderscores(s: string): (r: string)
    ensures |r| == |s| && ' ' !in r
    ensures forall k :: 0 <= k < |s| ==> r[k] == (if s[k] == ' ' then '_' else s[k])
  {
    seq(|s|, k requires 0 <= k < |s| => if s[k] == ' ' then '_' else s[k])
  }

  /** Python's `str()` of a JSON value read with `.get`: a missing id
      prints as `None`. */
  function PyStr(v: Option<string>): string {
    match v
    case Some(s) => s
    case None => "None"
  }

  /** `sanitize_filename(name.replace(" ", "_"))`: never holds an ASCII
      space, whatever the name. */
  function FileStem(cc: CharClasses, name: string): (stem: string)
    ensures ' ' !in stem
    ensures |stem| <= |name|
  {
    var spaced := SpacesToUnderscores(name);
    SanitizeKeepsSpaceFree(cc, spaced);
    Sanitize(cc, spaced)
  }

  /** `f"{id}_{stem}.jpg"` for a stem without ASCII spaces. */
  function JpgName(id: string, stem: string): (f: string)
    requires ' ' !in stem
    ensures |f| == |id| + |stem| + 5
    ensures f[..|id| + 1] == id + "_"
    ensures f[|f| - 4..] == ".jpg"
    ensures forall k :: |id| <= k < |f| ==> f[k] != ' '
  {
    var f := id + "_" + stem + ".jpg";
    forall k | |id| <= k < |f|
      ensures f[k] != ' '
    {
      if |id| < k <= |id| + |stem| {
        assert f[k] == stem[k - |id| - 1];
      }
    }
    f
  }

  /** `f"{id}_{sanitize_filename(name.replace(' ', '_'))}.jpg"` */
  function MemeFileName(cc: CharClasses, id: Option<string>, name: string): (f: string)
    ensures |f| >= |PyStr(id)| + 5
    ensures f[..|PyStr(id)| + 1] == PyStr(id) + "_"
    ensures f[|f| - 4..] == ".jpg"
    // Past the id, the name holds no ASCII space.
    ensures forall k :: |PyStr(id)| <= k < |f| ==> f[k] != ' '
  {
    JpgName(PyStr(id), FileStem(cc, name))
  }

  /** `os.path.join(directory, file)` on POSIX for a directory without a
      trailing slash: an absolute second part replaces the first. */
  function PathJoin(directory: string, file: string): (p: string)
    ensures |file| > 0 && file[0] == '/' ==> p == file
    ensures !(|file| > 0 && file[0] == '/') ==> p == directory + "/" + file
    ensures |file| <= |p| && p[|p| - |file|..] == file
  {
    if |file| > 0 && file[0] == '/' then file else directory + "/" + file
  }

  /** Two memes with different all-digit ids (as the catalog's ids are)
      never share a file name, whatever their names. */
  lemma DigitIdsKeepFilesApart(cc: CharClasses, id1: string, name1: string, id2: string, name2: string)
    requires AllDigits(id1) && AllDigits(id2)
    ensures MemeFileName(cc, Some(id1), name1) == MemeFileName(cc, Some(id2), name2) ==> id1 == id2
  {
    IdBeforeUnderscore(cc, id1, name1);
    IdBeforeUnderscore(cc, id2, name2);
  }

  /** The id of an all-digit file name is what precedes its first
      underscore. */
  lemma IdBeforeUnderscore(cc: CharClasses, id: string, name: string)
    requires AllDigits(id)
    ensures UpTo(MemeFileName(cc, Some(id), name), "_") == id
  {
    var f := MemeFileName(cc, Some(id), name);
    assert f == id + ['_'] + f[|id| + 1..] by {
      assert f[..|id| + 1] == id + "_";
    }
    UpToExtend(id, '_', f[|id| + 1..]);
    assert '_' !in id by {
      forall k | 0 <= k < |id|
        ensures id[k] != '_'
      {
        assert IsDigit(id[k]);
      }
    }
    ContainsChar(id, '_');
  }

  /** A key of a meme record in the catalog JSON: absent, `null`, or a
      string. */
  datatype Field = Absent | Null | Text(text: string)

  /** `meme.get(key)`: absent and `null` both read as `None`. */
  function Get(f: Field): (v: Option<string>)
    ensures v.Some? <==> f.Text?
  {
    match f
    case Text(t) => Some(t)
    case _ => None
  }

  datatype RawMeme = RawMeme(id: Field, name: Field, url: Field)
}

=== FILE: naming.dfy ===
/** Naming of a rendered meme (lib/image-utils.ts): the returned name is the
    template id, a dash and the millisecond timestamp; the image is written
    as that name plus `.jpg` under `public/generated`. */
module OutputNaming {
  import opened Wrappers
  import opened Decimal

  const GeneratedDirectory := "public/generated/"

  /** `${memeId}-${timestamp}` */
  function OutputName(memeId: string, timestamp: nat): (name: string)
    ensures |name| > |memeId| + 1
    ensures name[..|memeId|] == memeId && name[|memeId|] == '-'
    ensures '.' !in name[|memeId|..] && '/' !in name[|memeId|..]
  {
    memeId + "-" + DecimalString(timestamp)
  }

  /** Where the encoded image is written, relative to the working directory;
      the returned name carries neither the directory nor the suffix. */
  function GeneratedFile(name: string): (path: string)
    ensures |path| == |GeneratedDirectory| + |name| + 4
    ensures path[..|GeneratedDirectory|] == GeneratedDirectory
    ensures path[|GeneratedDirectory|..|path| - 4] == name
    ensures path[|path| - 4..] == ".jpg"
  {
    GeneratedDirectory + name + ".jpg"
  }

  function LastIndexOfChar(s: string, c: char): (r: Option<nat>)
    ensures r.Some? ==> r.value < |s| && s[r.value] == c
    ensures r.Some? ==> forall j :: r.value < j < |s| ==> s[j] != c
    ensures r.None? ==> c !in s
    decreases |s|
  {
    if |s| == 0 then None
    else if s[|s| - 1] == c then Some(|s| - 1)
    else LastIndexOfChar(s[..|s| - 1], c)
  }

  /** Recovers the template id and timestamp from an output name: the
      timestamp is the digits after the last dash. */
  function ParseOutputName(name: string): Option<(string, nat)>
  {
    match LastIndexOfChar(name, '-')
    case None => None
    case Some(k) =>
      var digits := name[k + 1..];
      if |digits| > 0 && AllDigits(digits) then Some((name[..k], DecimalValue(digits)))
      else None
  }

  /** Every output name can be taken apart again into the id and the
      timestamp that produced it. */
  lemma OutputNameRoundTrip(memeId: string, timestamp: nat)
    ensures ParseOutputName(OutputName(memeId, timestamp)) == Some((memeId, timestamp))
  {
    var name := OutputName(memeId, timestamp);
    var digits := DecimalString(timestamp);
    assert name[|memeId|] == '-';
    forall j | |memeId| < j < |name|
      ensures name[j] != '-'
    {
      assert name[j] == digits[j - |memeId| - 1];
    }
    assert LastIndexOfChar(name, '-') == Some(|memeId|);
    assert name[|memeId| + 1..] == digits;
    assert name[..|memeId|] == memeId;
    DecimalRoundTrip(timestamp);
  }

  /** Two renders collide on their output name only if both the template id
      and the timestamp agree; in particular, for one template, distinct
      timestamps give distinct names. */
  lemma OutputNamesDistinct(id1: string, t1: nat, id2: string, t2: nat)
    ensures OutputName(id1, t1) == OutputName(id2, t2) ==> id1 == id2 && t1 == t2
  {
    OutputNameRoundTrip(id1, t1);
    OutputNameRoundTrip(id2, t2);
  }
}

=== FILE: placement.dfy ===
/** Vertical placement of the caption blocks (lib/image-utils.ts). Every
    wrapped line is drawn centred across the full image width, at a y that
    advances by `fontSize * 1.5` per line. The top block starts 30 pixels
    below the top edge; the bottom block starts far enough above the bottom
    edge to leave 30 pixels under an estimated number of lines. */
module Placement {
  import opened FontFit

  const TopOffset := 30
  const BottomOffset := 30

  /** A y coordinate as the source computes it in floating point: an
      integer for every input except an image exactly as wide as the side
      margin, where the bottom estimate divides by zero and the result is
      not finite (minus infinity, or NaN for a zero-width text). */
  datatype Ordinate = Pixel(y: int) | NotFinite

  function Shift(o: Ordinate, dy: int): Ordinate {
    match o
    case Pixel(y) => Pixel(y + dy)
    case NotFinite => NotFinite
  }

  /** `fontSize * 1.5`; exact, since every ladder size is even. */
  function LineHeight(size: FontSize): (h: nat)
    ensures 2 * h == 3 * size
  {
    size * 3 / 2
  }

  /** One `image.print` call: the line's text and where its top edge goes. */
  datatype Draw = Draw(text: string, y: Ordinate)

  /** The draw loop of `printWrappedText`: `currentY` starts at `y0` and
      grows by the line height after each line. `Math.round` leaves these
      values unchanged because they are already whole. */
  function Block(lines: seq<string>, y0: Ordinate, size: FontSize): (ds: seq<Draw>)
    ensures |ds| == |lines|
    ensures forall k :: 0 <= k < |ds| ==> ds[k] == Draw(lines[k], Shift(y0, k * LineHeight(size)))
    decreases |lines|
  {
    if lines == [] then []
    else [Draw(lines[0], y0)] + Block(lines[1..], Shift(y0, LineHeight(size)), size)
  }

  /** `Math.ceil(m / d)` for a non-zero divisor of either sign. */
  function CeilDiv(m: int, d: int): (q: int)
    requires d != 0
    ensures d > 0 ==> (q - 1) * d < m <= q * d
    ensures d < 0 ==> q * d <= m < (q - 1) * d
  {
    var q := m / d;
    assert m == q * d + m % d;
    if m % d == 0 || d < 0 then q else q + 1
  }

  /** `Math.ceil(measureText(font, bottomText) / (width - 60))`: the number
      of limit-wide lines the unwrapped bottom text would fill. */
  function EstimatedLines(textWidth: nat, width: nat): (est: int)
    requires width != SideMargin
    ensures width > SideMargin ==> est >= 0
    ensures width > SideMargin ==> (est - 1) * (width - SideMargin) < textWidth <= est * (width - SideMargin)
  {
    CeilDiv(textWidth, width - SideMargin)
  }

  /** Where the bottom block's first line goes. */
  function BottomStart(width: nat, height: nat, size: FontSize, textWidth: nat): (y: Ordinate)
    ensures y.NotFinite? <==> width == SideMargin
    ensures width != SideMargin ==>
      y == Pixel(height - BottomOffset - EstimatedLines(textWidth, width) * LineHeight(size))
  {
    if width == SideMargin then NotFinite
    else Pixel(height - EstimatedLines(textWidth, width) * LineHeight(size) - BottomOffset)
  }

  /** The estimated number of lines, stacked from the bottom start, ends
      exactly at the bottom offset. */
  lemma EstimatedBlockEndsAtOffset(width: nat, height: nat, size: FontSize, textWidth: nat)
    requires width != SideMargin
    ensures Shift(BottomStart(width, height, size, textWidth),
                  EstimatedLines(textWidth, width) * LineHeight(size)) == Pixel(height - BottomOffset)
  {
  }

  /** A line stacked at or past the estimated count starts at or below
      the bottom offset. */
  lemma StackedPastEstimate(width: nat, height: nat, size: FontSize, textWidth: nat, k: int)
    requires width != SideMargin
    requires k >= EstimatedLines(textWidth, width)
    ensures var y := Shift(BottomStart(width, height, size, textWidth), k * LineHeight(size));
      y.Pixel? && y.y >= height - BottomOffset
  {
    var est := EstimatedLines(textWidth, width);
    var h := LineHeight(size);
    assert k * h - est * h == (k - est) * h;
    assert (k - est) * h >= 0;
  }
}

=== FILE: route.dfy ===
/** The `POST` handler of app/api/generateCaption/route.ts: finds the
    template by id, answers 404 when there is none, takes the caption from
    the language model when a prompt is given and from the request
    otherwise, renders it, and answers with the caption and the image
    name, or 500 when anything throws. The language model and the image
    generator are parameters; the handler's calls to them are recorded. */
module CaptionRoute {
  import opened Wrappers
  import opened MemeCatalog
  import opened ImageUtils
  import opened Decimal

  /** The parsed JSON body; a field that is absent or `null` is `None`. */
  datatype Request = Request(memeId: Option<string>, prompt: Option<string>, caption: Option<string>)

  datatype Body =
    | Generated(caption: Option<string>, imageUrl: string)
    | ErrorBody(error: string)

  datatype Response = Response(status: nat, body: Body)

  /** A call of the image generator: `(template_url, finalCaption, id)`. */
  datatype RenderCall = RenderCall(templateUrl: string, caption: Option<string>, memeId: string)

  /** A call of the language model: the template's name and the prompt. */
  datatype PromptCall = PromptCall(memeName: string, prompt: string)

  /** The response together with every collaborator call made on the way. */
  datatype Handled = Handled(response: Response, promptCalls: seq<PromptCall>, renderCalls: seq<RenderCall>)

  const NotFoundMessage := "Meme template not found"
  const FailureMessage := "Failed to generate caption"

  /** A language model: the generated text, or `None` when the call throws. */
  type LanguageModel = PromptCall -> Option<string>

  /** An image generator: the returned name, or `None` when it throws. */
  type Generator = RenderCall -> Option<string>

  /** `memes.find(m => m.id === memeId)`, as an index into the catalog. */
  function FindTemplate(catalog: seq<MemeTemplate>, memeId: Option<string>): (r: Option<nat>)
    ensures r.Some? ==> r.value < |catalog| && memeId == Some(catalog[r.value].id)
    ensures r.Some? ==> forall j :: 0 <= j < r.value ==> memeId != Some(catalog[j].id)
    ensures r.None? <==> forall j :: 0 <= j < |catalog| ==> memeId != Some(catalog[j].id)
    decreases |catalog|
  {
    if |catalog| == 0 then None
    else if memeId == Some(catalog[0].id) then Some(0)
    else match FindTemplate(catalog[1..], memeId)
      case None => None
      case Some(i) => Some(i + 1)
  }

  /** JavaScript truthiness of the `prompt` field. */
  predicate Truthy(prompt: Option<string>) {
    prompt.Some? && prompt.value != ""
  }

  function ServerError(promptCalls: seq<PromptCall>, renderCalls: seq<RenderCall>): Handled {
    Handled(Response(500, ErrorBody(FailureMessage)), promptCalls, renderCalls)
  }

  /** `body` is `None` when `req.json()` throws. */
  function HandlePost(catalog: seq<MemeTemplate>, body: Option<Request>,
                      model: LanguageModel, generate: Generator): (h: Handled)
    ensures body.None? ==> h == ServerError([], [])
    // An unknown id is a 404 and neither collaborator is called.
    ensures body.Some? && FindTemplate(catalog, body.value.memeId).None? ==>
      h == Handled(Response(404, ErrorBody(NotFoundMessage)), [], [])
    // The generator is called at most once, always for a catalog entry.
    ensures |h.renderCalls| <= 1
    ensures |h.promptCalls| <= 1
    ensures h.renderCalls != [] ==>
      exists k :: 0 <= k < |catalog| && h.renderCalls[0] == RenderCall(catalog[k].templateUrl, h.renderCalls[0].caption, catalog[k].id)
    // Success only ever reports what the generator returned.
    ensures h.response.status == 200 ==>
      |h.renderCalls| == 1 && h.response.body.Generated? &&
      generate(h.renderCalls[0]) == Some(h.response.body.imageUrl) &&
      h.response.body.caption == h.renderCalls[0].caption
    ensures h.response.status in {200, 404, 500}
  {
    match body
    case None => ServerError([], [])
    case Some(req) =>
      match FindTemplate(catalog, req.memeId)
      case None => Handled(Response(404, ErrorBody(NotFoundMessage)), [], [])
      case Some(i) =>
        var meme := catalog[i];
        var promptCalls := if Truthy(req.prompt) then [PromptCall(meme.name, req.prompt.value)] else [];
        var finalCaption := if Truthy(req.prompt) then model(promptCalls[0]) else req.caption;
        if Truthy(req.prompt) && finalCaption.None? then ServerError(promptCalls, [])
        else
          var call := RenderCall(meme.templateUrl, finalCaption, meme.id);
          match generate(call)
          case None => ServerError(promptCalls, [call])
          case Some(url) => Handled(Response(200, Generated(finalCaption, url)), promptCalls, [call])
  }

  // ----- Caption selection -----

  /** With a truthy prompt, the model is asked once with the template's
      name, and whatever text it returns is rendered as it is, with no
      check on its number of lines. */
  lemma PromptedCaption(catalog: seq<MemeTemplate>, req: Request, model: LanguageModel, generate: Generator)
    requires FindTemplate(catalog, req.memeId).Some?
    requires Truthy(req.prompt)
    ensures var meme := catalog[FindTemplate(catalog, req.memeId).value];
      var h := HandlePost(catalog, Some(req), model, generate);
      var ask := PromptCall(meme.name, req.prompt.value);
      && h.promptCalls == [ask]
      && (model(ask).None? ==> h == ServerError([ask], []))
      && (model(ask).Some? ==> h.renderCalls == [RenderCall(meme.templateUrl, model(ask), meme.id)])
  {
  }

  /** With a falsy prompt (absent, null or empty), the model is not asked
      and the request's caption is rendered unmodified, even when absent. */
  lemma ManualCaption(catalog: seq<MemeTemplate>, req: Request, model: LanguageModel, generate: Generator)
    requires FindTemplate(catalog, req.memeId).Some?
    requires !Truthy(req.prompt)
    ensures var meme := catalog[FindTemplate(catalog, req.memeId).value];
      var h := HandlePost(catalog, Some(req), model, generate);
      && h.promptCalls == []
      && h.renderCalls == [RenderCall(meme.templateUrl, req.caption, meme.id)]
  {
  }

  /** The generator's outcome decides the response: its name is returned
      with the caption it was given, and a failure becomes a 500. */
  lemma GeneratorDecidesResponse(catalog: seq<MemeTemplate>, req: Request, model: LanguageModel, generate: Generator)
    requires FindTemplate(catalog, req.memeId).Some?
    requires HandlePost(catalog, Some(req), model, generate).renderCalls != []
    ensures var h := HandlePost(catalog, Some(req), model, generate);
      var call := h.renderCalls[0];
      && (generate(call).None? ==> h.response == Response(500, ErrorBody(FailureMessage)))
      && (generate(call).Some? ==> h.response == Response(200, Generated(call.caption, generate(call).value)))
  {
  }

  /** Catalogs that differ only in their entries' `textPosition` are
      handled identically: the position passed to the generator is not
      one of its parameters. */
  lemma TextPositionIgnored(a: seq<MemeTemplate>, b: seq<MemeTemplate>, body: Option<Request>,
                            model: LanguageModel, generate: Generator)
    requires |a| == |b|
    requires forall k :: 0 <= k < |a| ==> a[k].(textPosition := None) == b[k].(textPosition := None)
    ensures HandlePost(a, body, model, generate) == HandlePost(b, body, model, generate)
  {
    forall k | 0 <= k < |a|
      ensures a[k].id == b[k].id && a[k].name == b[k].name && a[k].templateUrl == b[k].templateUrl
    {
      assert a[k].id == a[k].(textPosition := None).id;
      assert b[k].id == b[k].(textPosition := None).id;
      assert a[k].name == a[k].(textPosition := None).name;
      assert b[k].name == b[k].(textPosition := None).name;
      assert a[k].templateUrl == a[k].(textPosition := None).templateUrl;
      assert b[k].templateUrl == b[k].(textPosition := None).templateUrl;
    }
    if body.Some? {
      FindSameIds(a, b, body.value.memeId);
    }
  }

  lemma {:induction false} FindSameIds(a: seq<MemeTemplate>, b: seq<MemeTemplate>, memeId: Option<string>)
    requires |a| == |b|
    requires forall k :: 0 <= k < |a| ==> a[k].id == b[k].id
    ensures FindTemplate(a, memeId) == FindTemplate(b, memeId)
    decreases |a|
  {
    if |a| > 0 {
      FindSameIds(a[1..], b[1..], memeId);
    }
  }

  // ----- The handler with the real compositor -----

  /** `generateMemeImage` as the handler sees it: the name, or a throw. */
  function Compositor(env: Environment): Generator {
    (c: RenderCall) =>
      match GenerateMemeImage(env, c.templateUrl, c.caption, c.memeId)
      case Success(out) => Some(out.name)
      case Failure(_) => None
  }

  /** With the compositor in place, a successful response's image url is
      the template id, a dash and the clock reading. */
  lemma SuccessNamesImageByIdAndClock(catalog: seq<MemeTemplate>, req: Request, model: LanguageModel, env: Environment)
    requires FindTemplate(catalog, req.memeId).Some?
    requires HandlePost(catalog, Some(req), model, Compositor(env)).response.status == 200
    ensures HandlePost(catalog, Some(req), model, Compositor(env)).response.body.imageUrl
         == catalog[FindTemplate(catalog, req.memeId).value].id + "-" + DecimalString(env.now)
  {
  }

  /** A request with neither a truthy prompt nor a caption reaches the
      compositor with `undefined`, which throws: the answer is a 500, not a
      validation error. */
  lemma MissingCaptionIsServerError(catalog: seq<MemeTemplate>, req: Request, model: LanguageModel, env: Environment)
    requires FindTemplate(catalog, req.memeId).Some?
    requires !Truthy(req.prompt) && req.caption.None?
    ensures HandlePost(catalog, Some(req), model, Compositor(env)).response == Response(500, ErrorBody(FailureMessage))
  {
  }
}

=== FILE: sequences.dfy ===
/** Order-preserving selection from a sequence, the reference for the
    scripts' filter-and-emit loops. */
module Sequences {

  function Filter<T>(keep: T -> bool, s: seq<T>): (r: seq<T>)
    ensures |r| <= |s|
    ensures forall k :: 0 <= k < |r| ==> keep(r[k]) && r[k] in s
    ensures forall k :: 0 <= k < |s| && keep(s[k]) ==> s[k] in r
    decreases |s|
  {
    if s == [] then []
    else (if keep(s[0]) then [s[0]] else []) + Filter(keep, s[1..])
  }

  /** Selection distributes over concatenation: kept elements keep their
      relative order. */
  lemma {:induction false} FilterConcat<T>(keep: T -> bool, a: seq<T>, b: seq<T>)
    ensures Filter(keep, a + b) == Filter(keep, a) + Filter(keep, b)
    decreases |a|
  {
    if a == [] {
      assert a + b == b;
    } else {
      assert (a + b)[1..] == a[1..] + b;
      FilterConcat(keep, a[1..], b);
    }
  }
}

=== FILE: strings.dfy ===
/** String operations the source takes from its languages' standard
    libraries: searching for a substring, `split` on a separator (JavaScript
    `String.prototype.split` and Python `str.split` agree for a non-empty
    separator), joining, and trimming surrounding whitespace. */
module Strings {
  import opened Wrappers

  /** `pat` occurs in `s` starting at index `i`. */
  predicate OccursAt(s: string, pat: string, i: nat) {
    i + |pat| <= |s| && s[i..i + |pat|] == pat
  }

  predicate Contains(s: string, pat: string) {
    exists i | 0 <= i <= |s| :: OccursAt(s, pat, i)
  }

  /** The first occurrence of `pat` in `s` at or after `k`. */
  function IndexFrom(s: string, pat: string, k: nat): (r: Option<nat>)
    ensures r.Some? ==> k <= r.value && OccursAt(s, pat, r.value)
    ensures r.Some? ==> forall j: nat :: k <= j < r.value ==> !OccursAt(s, pat, j)
    ensures r.None? ==> forall j: nat :: k <= j ==> !OccursAt(s, pat, j)
    decreases |s| + 1 - k
  {
    if |s| < k + |pat| then None
    else if s[k..k + |pat|] == pat then Some(k)
    else IndexFrom(s, pat, k + 1)
  }

  /** The first occurrence of `pat` in `s` (`indexOf` / `str.find`). */
  function IndexOf(s: string, pat: string): (r: Option<nat>)
    ensures r.Some? ==> OccursAt(s, pat, r.value)
    ensures r.Some? ==> forall j: nat :: j < r.value ==> !OccursAt(s, pat, j)
    ensures r.None? <==> !Contains(s, pat)
  {
    var r := IndexFrom(s, pat, 0);
    assert r.Some? ==> r.value <= |s|;
    r
  }

  /** An occurrence in a slice is an occurrence in the whole string. */
  lemma OccursInSlice(s: string, lo: nat, hi: nat, pat: string, j: nat)
    requires lo <= hi <= |s|
    ensures OccursAt(s[lo..hi], pat, j) ==> OccursAt(s, pat, lo + j)
  {
    if OccursAt(s[lo..hi], pat, j) {
      var inner := s[lo..hi][j..j + |pat|];
      var outer := s[lo + j..lo + j + |pat|];
      forall k | 0 <= k < |pat|
        ensures inner[k] == outer[k]
      {
      }
      assert inner == outer;
    }
  }

  /** A slice of a string free of `pat` is free of `pat`. */
  lemma SliceKeepsAbsence(s: string, lo: nat, hi: nat, pat: string)
    requires lo <= hi <= |s|
    requires !Contains(s, pat)
    ensures !Contains(s[lo..hi], pat)
  {
    forall j | 0 <= j <= hi - lo
      ensures !OccursAt(s[lo..hi], pat, j)
    {
      OccursInSlice(s, lo, hi, pat, j);
    }
  }

  /** For a one-character pattern, containment is membership. */
  lemma ContainsChar(s: string, c: char)
    ensures Contains(s, [c]) <==> c in s
  {
    if c in s {
      var i :| 0 <= i < |s| && s[i] == c;
      assert OccursAt(s, [c], i);
    }
    if Contains(s, [c]) {
      var i :| 0 <= i <= |s| && OccursAt(s, [c], i);
      assert s[i] == s[i..i + 1][0];
    }
  }

  function Join(parts: seq<string>, sep: string): string
    decreases |parts|
  {
    if |parts| == 0 then ""
    else if |parts| == 1 then parts[0]
    else parts[0] + sep + Join(parts[1..], sep)
  }

  /** Joining two non-empty runs of parts puts one separator between them. */
  lemma {:induction false} JoinConcat(a: seq<string>, b: seq<string>, sep: string)
    requires |a| > 0 && |b| > 0
    ensures Join(a + b, sep) == Join(a, sep) + sep + Join(b, sep)
    decreases |a|
  {
    if |a| == 1 {
      assert (a + b)[1..] == b;
    } else {
      assert (a + b)[1..] == a[1..] + b;
      JoinConcat(a[1..], b, sep);
    }
  }

  /** Runs of parts that join to the same text still do after the same
      parts are appended to both. */
  lemma JoinRespects(a: seq<string>, b: seq<string>, rest: seq<string>, sep: string)
    requires |a| > 0 && |b| > 0 && Join(a, sep) == Join(b, sep)
    ensures Join(a + rest, sep) == Join(b + rest, sep)
  {
    if rest == [] {
      assert a + rest == a && b + rest == b;
    } else {
      JoinConcat(a, rest, sep);
      JoinConcat(b, rest, sep);
    }
  }

  /** `s.split(sep)`: the pieces of `s` between occurrences of `sep`, read
      left to right. */
  function Split(s: string, sep: string): (parts: seq<string>)
    requires |sep| > 0
    ensures |parts| >= 1
    ensures Join(parts, sep) == s
    ensures forall k :: 0 <= k < |parts| ==> !Contains(parts[k], sep)
    decreases |s|
  {
    match IndexOf(s, sep)
    case None => [s]
    case Some(i) =>
      PrefixBeforeFirstIsFree(s, sep, i);
      var rest := Split(s[i + |sep|..], sep);
      assert s == s[..i] + sep + s[i + |sep|..] by {
        assert s[i..i + |sep|] == sep;
        assert s == s[..i] + s[i..i + |sep|] + s[i + |sep|..];
      }
      assert ([s[..i]] + rest)[1..] == rest;
      [s[..i]] + rest
  }

  lemma PrefixBeforeFirstIsFree(s: string, sep: string, i: nat)
    requires |sep| > 0
    requires IndexOf(s, sep) == Some(i)
    ensures !Contains(s[..i], sep)
  {
    forall j | 0 <= j <= i
      ensures !OccursAt(s[..i], sep, j)
    {
      OccursInSlice(s, 0, i, sep, j);
    }
  }

  /** The first piece of a split is everything before the first separator;
      there is a second piece exactly when the separator occurs, and it runs
      up to the next separator. */
  lemma {:induction false} SplitPieces(s: string, sep: string)
    requires |sep| > 0
    ensures var parts := Split(s, sep);
      match IndexOf(s, sep)
      case None => parts == [s]
      case Some(i) =>
        && |parts| >= 2
        && parts[0] == s[..i]
        && parts[1] == UpTo(s[i + |sep|..], sep)
  {
    match IndexOf(s, sep)
    case None =>
    case Some(i) =>
      var rest := s[i + |sep|..];
      match IndexOf(rest, sep)
      case None =>
      case Some(j) =>
  }

  /** For a separator whose first character does not recur in it, an
      occurrence cannot start inside a separator-free prefix and run into
      the separator that follows it. */
  lemma FirstOccurrenceAfter(a: string, sep: string, b: string)
    requires |sep| > 0 && sep[0] !in sep[1..]
    requires !Contains(a, sep)
    ensures IndexOf(a + sep + b, sep) == Some(|a|)
  {
    var s := a + sep + b;
    assert s[|a|..|a| + |sep|] == sep;
    assert OccursAt(s, sep, |a|);
    forall j: nat | j < |a|
      ensures !OccursAt(s, sep, j)
    {
      if j + |sep| <= |a| {
        assert s[j..j + |sep|] == a[j..j + |sep|];
        assert !OccursAt(a, sep, j);
      } else {
        var k := |a| - j;
        assert sep[1..][k - 1] == sep[k];
        assert s[|a|] == sep[0];
        if j + |sep| <= |s| {
          assert s[j..j + |sep|][k] == s[|a|];
        }
      }
    }
  }

  /** The text of `s` before the first `sep`, or all of `s`. */
  function UpTo(s: string, sep: string): (r: string)
    ensures |r| <= |s| && r == s[..|r|]
    ensures !Contains(r, sep) || |sep| == 0
  {
    match IndexOf(s, sep)
    case None => s
    case Some(i) =>
      if |sep| > 0 then
        PrefixBeforeFirstIsFree(s, sep, i);
        s[..i]
      else s[..i]
  }

  /** A string without the separator is its own text before it. */
  lemma UpToAbsent(s: string, sep: string)
    requires !Contains(s, sep)
    ensures UpTo(s, sep) == s
  {
  }

  /** Splitting a string whose first line ends at a given separator: the
      head comes off as the first piece. */
  lemma SplitAtFirstChar(a: string, c: char, rest: string)
    requires c !in a
    ensures Split(a + [c] + rest, [c]) == [a] + Split(rest, [c])
  {
    var s := a + [c] + rest;
    assert OccursAt(s, [c], |a|) by { assert s[|a|..|a| + 1] == [c]; }
    forall j: nat | j < |a|
      ensures !OccursAt(s, [c], j)
    {
      assert s[j..j + 1] == [a[j]];
    }
    assert IndexOf(s, [c]) == Some(|a|);
    assert s[..|a|] == a;
    assert s[|a| + 1..] == rest;
  }

  /** A one-character pattern occurs exactly where that character stands. */
  lemma OccursAtChar(s: string, c: char, j: nat)
    ensures OccursAt(s, [c], j) <==> j < |s| && s[j] == c
  {
    if j < |s| {
      assert s[j..j + 1] == [s[j]];
    }
  }

  /** Appending a separator and more text does not change what comes
      before the first separator. */
  lemma UpToExtend(a: string, c: char, b: string)
    ensures UpTo(a + [c] + b, [c]) == UpTo(a, [c])
  {
    var s := a + [c] + b;
    forall j: nat
      ensures OccursAt(s, [c], j) <==> j < |s| && s[j] == c
      ensures OccursAt(a, [c], j) <==> j < |a| && a[j] == c
    {
      OccursAtChar(s, c, j);
      OccursAtChar(a, c, j);
    }
    match IndexOf(a, [c])
    case Some(i) =>
      assert IndexOf(s, [c]) == Some(i);
      assert s[..i] == a[..i];
    case None =>
      assert OccursAt(s, [c], |a|);
      assert IndexOf(s, [c]) == Some(|a|);
      assert s[..|a|] == a;
  }

  /** A string in which `c` does not occur splits into itself alone. */
  lemma SplitWithoutChar(s: string, c: char)
    requires c !in s
    ensures Split(s, [c]) == [s]
  {
    ContainsChar(s, c);
  }

  /** `s.replace(pat, rep)` with a string pattern: only the first
      occurrence is replaced. */
  function ReplaceFirst(s: string, pat: string, rep: string): (r: string)
    ensures !Contains(s, pat) ==> r == s
    ensures Contains(s, pat) ==> |r| == |s| - |pat| + |rep|
  {
    match IndexOf(s, pat)
    case None => s
    case Some(i) => s[..i] + rep + s[i + |pat|..]
  }

  // ----- Trimming -----

  /** No whitespace (as `isSpace` counts it) at either end. */
  predicate IsTrimmed(s: string, isSpace: char -> bool) {
    |s| == 0 || (!isSpace(s[0]) && !isSpace(s[|s| - 1]))
  }

  function TrimStart(s: string, isSpace: char -> bool): (r: string)
    ensures |r| <= |s| && r == s[|s| - |r|..]
    ensures |r| > 0 ==> !isSpace(r[0])
    ensures forall k :: 0 <= k < |s| - |r| ==> isSpace(s[k])
    decreases |s|
  {
    if |s| > 0 && isSpace(s[0]) then
      var r := TrimStart(s[1..], isSpace);
      assert forall k :: 1 <= k < |s| ==> s[k] == s[1..][k - 1];
      r
    else s
  }

  function TrimEnd(s: string, isSpace: char -> bool): (r: string)
    ensures |r| <= |s| && r == s[..|r|]
    ensures |r| > 0 ==> !isSpace(r[|r| - 1])
    ensures forall k :: |r| <= k < |s| ==> isSpace(s[k])
    decreases |s|
  {
    if |s| > 0 && isSpace(s[|s| - 1]) then
      var r := TrimEnd(s[..|s| - 1], isSpace);
      assert forall k :: 0 <= k < |s| - 1 ==> s[k] == s[..|s| - 1][k];
      r
    else s
  }

  /** Where the text left by `Trim` begins: the length of the leading
      whitespace. */
  function LeadingSpace(s: string, isSpace: char -> bool): (n: nat)
    ensures n <= |s|
  {
    |s| - |TrimStart(s, isSpace)|
  }

  /** Removes whitespace from both ends (`String.prototype.trim`,
      `str.strip`); what remains is the slice of `s` after its leading
      whitespace. */
  function Trim(s: string, isSpace: char -> bool): (r: string)
    ensures |r| <= |s|
    ensures IsTrimmed(r, isSpace)
    ensures IsTrimmed(s, isSpace) ==> r == s
  {
    var t := TrimStart(s, isSpace);
    var r := TrimEnd(t, isSpace);
    assert |r| > 0 ==> r[0] == t[0];
    r
  }

  lemma TrimIsSlice(s: string, isSpace: char -> bool)
    ensures LeadingSpace(s, isSpace) + |Trim(s, isSpace)| <= |s|
    ensures Trim(s, isSpace) == s[LeadingSpace(s, isSpace)..LeadingSpace(s, isSpace) + |Trim(s, isSpace)|]
  {
  }

  /** What `Trim` removes is whitespace: the leading run before the slice
      it keeps and the trailing run after it. */
  lemma TrimRemovesOnlySpace(s: string, isSpace: char -> bool)
    ensures var lead := LeadingSpace(s, isSpace);
      var r := Trim(s, isSpace);
      && lead + |r| <= |s|
      && (forall k :: 0 <= k < lead ==> isSpace(s[k]))
      && (forall k :: lead + |r| <= k < |s| ==> isSpace(s[k]))
  {
    var t := TrimStart(s, isSpace);
    var lead := |s| - |t|;
    var r := TrimEnd(t, isSpace);
    assert Trim(s, isSpace) == r;
    forall k | lead + |r| <= k < |s|
      ensures isSpace(s[k])
    {
      assert s[k] == t[k - lead];
    }
  }

  /** Trimming never introduces a pattern that was absent. */
  lemma TrimKeepsAbsence(s: string, isSpace: char -> bool, pat: string)
    requires !Contains(s, pat)
    ensures !Contains(Trim(s, isSpace), pat)
  {
    var t := TrimStart(s, isSpace);
    SliceKeepsAbsence(s, |s| - |t|, |s|, pat);
    assert t == s[|s| - |t|..|s|];
    var r := TrimEnd(t, isSpace);
    SliceKeepsAbsence(t, 0, |r|, pat);
    assert r == t[0..|r|];
  }

  /** Whitespace as ECMAScript's `trim` removes it: the WhiteSpace and
      LineTerminator code points. */
  predicate IsJsWhiteSpace(c: char) {
    var n := c as int;
    || n == 0x09 || n == 0x0A || n == 0x0B || n == 0x0C || n == 0x0D
    || n == 0x20 || n == 0xA0 || n == 0x1680
    || (0x2000 <= n <= 0x200A)
    || n == 0x2028 || n == 0x2029 || n == 0x202F || n == 0x205F
    || n == 0x3000 || n == 0xFEFF
  }

  /** The UTF-16 code units a character takes: two for a character outside
      the Basic Multilingual Plane (a surrogate pair), one otherwise. */
  function CodeUnits(c: char): (n: nat)
    ensures n == 1 || n == 2
    ensures n == 2 <==> c as int > 0xFFFF
  {
    if c as int > 0xFFFF then 2 else 1
  }

  /** JavaScript's `.length`: the number of UTF-16 code units, which counts
      every character outside the Basic Multilingual Plane twice. */
  function JsLength(s: string): (n: nat)
    ensures |s| <= n <= 2 * |s|
    decreases |s|
  {
    if s == [] then 0 else CodeUnits(s[0]) + JsLength(s[1..])
  }

  /** Within the Basic Multilingual Plane, `.length` counts characters. */
  lemma {:induction false} JsLengthInPlane(s: string)
    requires forall k :: 0 <= k < |s| ==> s[k] as int <= 0xFFFF
    ensures JsLength(s) == |s|
    decreases |s|
  {
    if s != [] {
      assert forall k :: 0 <= k < |s[1..]| ==> s[1..][k] == s[k + 1];
      JsLengthInPlane(s[1..]);
    }
  }
}

=== FILE: textwrap.dfy ===
/** Greedy word wrap (`printWrappedText` in lib/image-utils.ts): the text is
    split on single spaces and the words are packed, in order, into lines
    whose measured width stays within the limit; a word that does not fit
    after the current line starts a new line, and a word wider than the
    limit is left whole on a line of its own. */
module TextWrap {
  import opened Strings
  import opened FontFit

  /** The loop's variables: the lines committed so far and the line being
      filled (`currentLine`, empty at the start). */
  datatype WrapState = WrapState(lines: seq<string>, current: string)

  const Start := WrapState([], "")

  /** The lines the loop would emit if the words ran out now: the committed
      lines and, when non-empty, the current one. */
  function Pending(st: WrapState): seq<string> {
    st.lines + (if st.current == "" then [] else [st.current])
  }

  /** One iteration of the loop over the words. */
  function Step(measure: Measure, size: FontSize, limit: int, st: WrapState, word: string): WrapState {
    var testLine := if st.current == "" then word else st.current + " " + word;
    if measure(size, testLine) > limit && st.current != "" then
      WrapState(st.lines + [st.current], word)
    else
      WrapState(st.lines, testLine)
  }

  /** A line made of more than one word (one holding a space) fits. */
  predicate FitsUnlessOneWord(measure: Measure, size: FontSize, limit: int, line: string) {
    ' ' in line ==> measure(size, line) <= limit
  }

  ghost predicate Invariant(measure: Measure, size: FontSize, limit: int, st: WrapState) {
    && (forall k :: 0 <= k < |st.lines| ==> st.lines[k] != "")
    && (forall k :: 0 <= k < |st.lines| ==> FitsUnlessOneWord(measure, size, limit, st.lines[k]))
    && FitsUnlessOneWord(measure, size, limit, st.current)
  }

  /** A step keeps every committed line non-empty and every multi-word
      line within the limit. */
  lemma StepKeepsInvariant(measure: Measure, size: FontSize, limit: int, st: WrapState, word: string)
    requires ' ' !in word
    requires Invariant(measure, size, limit, st)
    ensures Invariant(measure, size, limit, Step(measure, size, limit, st, word))
  {
  }

  /** The loop `for (const word of words)`, as a left fold. Each word adds
      at most one line. */
  function Fold(measure: Measure, size: FontSize, limit: int, st: WrapState, words: seq<string>): (r: WrapState)
    requires forall k :: 0 <= k < |words| ==> ' ' !in words[k]
    requires Invariant(measure, size, limit, st)
    ensures Invariant(measure, size, limit, r)
    ensures |Pending(r)| <= |Pending(st)| + |words|
    decreases |words|
  {
    if words == [] then st
    else Fold(measure, size, limit, Step(measure, size, limit, st, words[0]), words[1..])
  }

  /** The lines `printWrappedText` draws for `text` with the font of size
      `size`, where `limit` is the image width less the margin. */
  function WrapLines(measure: Measure, size: FontSize, limit: int, text: string): (lines: seq<string>)
    ensures text == "" ==> lines == []
    ensures |lines| <= |Split(text, " ")|
    ensures forall k :: 0 <= k < |lines| ==> lines[k] != ""
    ensures forall k :: 0 <= k < |lines| ==> ' ' in lines[k] ==> measure(size, lines[k]) <= limit
  {
    if text == "" then []
    else
      var words := Split(text, " ");
      forall k | 0 <= k < |words|
        ensures ' ' !in words[k]
      {
        ContainsChar(words[k], ' ');
      }
      Pending(Fold(measure, size, limit, Start, words))
  }

  // ----- Order and content -----

  /** No space at either end and never two spaces in a row: splitting on
      single spaces then yields only non-empty words. */
  predicate SingleSpaced(text: string) {
    && text != ""
    && text[0] != ' '
    && text[|text| - 1] != ' '
    && forall k :: 0 <= k < |text| - 1 ==> !(text[k] == ' ' && text[k + 1] == ' ')
  }

  lemma {:induction false} SingleSpacedWords(text: string)
    requires SingleSpaced(text)
    ensures forall k :: 0 <= k < |Split(text, " ")| ==> Split(text, " ")[k] != ""
    decreases |text|
  {
    match IndexOf(text, " ")
    case None =>
    case Some(i) =>
      OccursAtChar(text, ' ', i);
      var rest := text[i + 1..];
      assert 0 < i < |text| - 1;
      assert rest[0] == text[i + 1];
      assert SingleSpaced(rest) by {
        forall k | 0 <= k < |rest| - 1
          ensures !(rest[k] == ' ' && rest[k + 1] == ' ')
        {
          assert rest[k] == text[i + 1 + k] && rest[k + 1] == text[i + 1 + k + 1];
        }
      }
      SingleSpacedWords(rest);
      assert Split(text, " ") == [text[..i]] + Split(rest, " ");
  }

  /** One step with a non-empty word emits the same text as appending that
      word to what was pending. */
  lemma StepRejoins(measure: Measure, size: FontSize, limit: int, st: WrapState, word: string)
    requires word != ""
    ensures Pending(Step(measure, size, limit, st, word)) != []
    ensures Join(Pending(Step(measure, size, limit, st, word)), " ") == Join(Pending(st) + [word], " ")
  {
    var cur := st.current;
    if cur != "" {
      var testLine := cur + " " + word;
      if !(measure(size, testLine) > limit) {
        if st.lines == [] {
          assert [cur, word][1..] == [word];
        } else {
          JoinConcat(st.lines, [testLine], " ");
          JoinConcat(st.lines, [cur, word], " ");
          assert [cur, word][1..] == [word];
          assert Pending(st) + [word] == st.lines + [cur, word];
        }
      } else {
        assert Pending(Step(measure, size, limit, st, word)) == Pending(st) + [word];
      }
    } else {
      assert Pending(Step(measure, size, limit, st, word)) == Pending(st) + [word];
    }
  }

  lemma {:induction false} FoldRejoins(measure: Measure, size: FontSize, limit: int, st: WrapState, words: seq<string>)
    requires forall k :: 0 <= k < |words| ==> ' ' !in words[k] && words[k] != ""
    requires Invariant(measure, size, limit, st)
    ensures Join(Pending(Fold(measure, size, limit, st, words)), " ") == Join(Pending(st) + words, " ")
    decreases |words|
  {
    if words == [] {
      assert Pending(st) + words == Pending(st);
    } else {
      var w := words[0];
      var rest := words[1..];
      var next := Step(measure, size, limit, st, w);
      assert Fold(measure, size, limit, st, words) == Fold(measure, size, limit, next, rest);
      StepRejoins(measure, size, limit, st, w);
      assert forall k :: 0 <= k < |rest| ==> rest[k] == words[k + 1];
      StepKeepsInvariant(measure, size, limit, st, w);
      FoldRejoins(measure, size, limit, next, rest);
      var before := Pending(st);
      var after := Pending(next);
      JoinRespects(after, before + [w], rest, " ");
      assert before + words == (before + [w]) + rest;
    }
  }

  /** Wrapping loses, adds and reorders nothing: for a text with single
      spaces between its words, joining the lines with single spaces
      reproduces the text. */
  lemma WrapRejoins(measure: Measure, size: FontSize, limit: int, text: string)
    requires SingleSpaced(text)
    ensures Join(WrapLines(measure, size, limit, text), " ") == text
  {
    var words := Split(text, " ");
    SingleSpacedWords(text);
    forall k | 0 <= k < |words|
      ensures ' ' !in words[k]
    {
      ContainsChar(words[k], ' ');
    }
    FoldRejoins(measure, size, limit, Start, words);
    assert Pending(Start) + words == words;
  }

  // ----- Greediness -----

  /** The text of a line up to its first space. */
  function FirstWord(line: string): string {
    UpTo(line, " ")
  }

  /** Line `b` could not have been started on line `a`: its first word
      would have pushed `a` past the limit. */
  predicate Overflows(measure: Measure, size: FontSize, limit: int, a: string, b: string) {
    measure(size, a + " " + FirstWord(b)) > limit
  }

  ghost predicate GreedyPairs(measure: Measure, size: FontSize, limit: int, lines: seq<string>) {
    forall k :: 0 <= k < |lines| - 1 ==> Overflows(measure, size, limit, lines[k], lines[k + 1])
  }

  ghost predicate GreedyState(measure: Measure, size: FontSize, limit: int, st: WrapState) {
    && GreedyPairs(measure, size, limit, Pending(st))
    && (st.lines != [] ==> st.current != "")
  }

  lemma StepGreedy(measure: Measure, size: FontSize, limit: int, st: WrapState, word: string)
    requires word != "" && ' ' !in word
    requires GreedyState(measure, size, limit, st)
    ensures GreedyState(measure, size, limit, Step(measure, size, limit, st, word))
  {
    var cur := st.current;
    var next := Step(measure, size, limit, st, word);
    if cur != "" {
      var testLine := cur + " " + word;
      if measure(size, testLine) > limit {
        assert FirstWord(word) == word by {
          ContainsChar(word, ' ');
        }
        assert Pending(next) == Pending(st) + [word];
      } else {
        UpToExtend(cur, ' ', word);
        assert FirstWord(testLine) == FirstWord(cur);
        var before := Pending(st);
        var after := Pending(next);
        assert before == st.lines + [cur] && after == st.lines + [testLine];
        forall k | 0 <= k < |after| - 1
          ensures Overflows(measure, size, limit, after[k], after[k + 1])
        {
          assert Overflows(measure, size, limit, before[k], before[k + 1]);
          if k + 1 == |st.lines| {
            assert after[k + 1] == testLine && before[k + 1] == cur;
          } else {
            assert after[k + 1] == before[k + 1];
          }
        }
      }
    }
  }

  lemma {:induction false} FoldGreedy(measure: Measure, size: FontSize, limit: int, st: WrapState, words: seq<string>)
    requires forall k :: 0 <= k < |words| ==> ' ' !in words[k] && words[k] != ""
    requires Invariant(measure, size, limit, st)
    requires GreedyState(measure, size, limit, st)
    ensures GreedyPairs(measure, size, limit, Pending(Fold(measure, size, limit, st, words)))
    decreases |words|
  {
    if words != [] {
      StepGreedy(measure, size, limit, st, words[0]);
      FoldGreedy(measure, size, limit, Step(measure, size, limit, st, words[0]), words[1..]);
    }
  }

  /** The wrap is greedy: for a single-spaced text, the first word of every
      line after the first would not have fitted on the line before it. */
  lemma WrapIsGreedy(measure: Measure, size: FontSize, limit: int, text: string)
    requires SingleSpaced(text)
    ensures var lines := WrapLines(measure, size, limit, text);
      forall k :: 0 <= k < |lines| - 1 ==>
        measure(size, lines[k] + " " + FirstWord(lines[k + 1])) > limit
  {
    var words := Split(text, " ");
    SingleSpacedWords(text);
    forall k | 0 <= k < |words|
      ensures ' ' !in words[k]
    {
      ContainsChar(words[k], ' ');
    }
    FoldGreedy(measure, size, limit, Start, words);
  }
}

=== FILE: wrappers.dfy ===
/** Failure-carrying values used across the model: `Option` for a value that
    may be absent (JavaScript `undefined`, Python `None`, a foreign call that
    threw), and `Result` for an operation that either succeeds or reports why
    it did not. */
module Wrappers {

  datatype Option<+T> = None | Some(value: T) {

    /** The carried value, or `default` when there is none. */
    function GetOr(default: T): T {
      match this
      case Some(v) => v
      case None => default
    }
  }

  datatype Result<+T, +E> = Success(value: T) | Failure(error: E)
}
